=== FILE: README.md ===
# Fanon wiki: request core around the page store

A model, in Dafny, of the logic that surrounds the wiki's page store:
- how a typed-in page title becomes a slug (`ToKebabCase` and the `/new-page` redirect);
- how the edit form is bound and validated (`PageInput.From`, `PageInputValidator`);
- how the save, delete-page and delete-attachment handlers sequence their store calls, index rebuilds and redirects;
- how search results are mapped back to pages;
- the search service's index (`BuildIndex`, `SearchTerm`).

The store itself (`Wiki`) is not part of the source files modelled. Its replies are parameters: `Endpoints.Wiki` holds them as functions of each call's arguments. Lunr's query evaluation is also a parameter (`Search.Engine`). A handler is modelled as the list of the store's mutating calls and the index rebuilds it makes, in order, together with the response it ends with (`Endpoints.Outcome`). An exception escaping a handler is an `Http.Fault`.

Modules:
- `Wrappers`: Option and Result.
- `Text`: ASCII classes, invariant lower-casing, `string.Join`, `char.IsWhiteSpace`.
- `Numbers`: `Int32.ToString` and `Convert.ToInt32`.
- `Http`: `StringValues`, forms, faults.
- `Kebab`: the slug pattern as a lexer.
- `Records`: records, binding and validation.
- `Search`: the index.
- `Endpoints`: the handlers.

Points of the code worth knowing, which the model follows:
- The search document's content is the page's segments joined with one space.
- An empty page listing registers no fields and adds no documents.
- "Name is required" is reported for a name that is null, empty or only white space. This is FluentValidation's `NotEmpty`.
- Deleting an attachment never rebuilds the index.
- When deleting an attachment fails, the redirect uses the page's bare `Name`, not its `NsName`.
- On the home-page route, a missing `Name` field makes the home-page rule throw: it calls `name.Equals` on null.
- `Page` in src/Records.cs has a single `Content` and no `NsName` or `Contents`, yet the handlers and the index use the latter two. The model keeps `nsName` and `contents` as given page values.
- The `ContentId` passed at src/Program.cs:202-209 does not exist on src/Records.cs's `PageInput`. The model follows src/Records.cs.

## Model

| member | source | states |
|---|---|---|
| Numbers.ParseInt32 | src/Program.cs:79 | `Convert.ToInt32` on a string (`int.Parse`): the empty text is a format error |
| Numbers.ParseNeedsDigit | src/Program.cs:79 | text with no ASCII digit is a format error, so every accepted text contains a digit |
| Numbers.ParseWellFormed | src/Program.cs:79 | white space, an optional `+` or `-`, digits and white space parse to the signed value of the digits when it fits in 32 bits, and otherwise raise the overflow error |
| Numbers.ParseDigitsOnly | src/Program.cs:231 | an `Id` of digits alone converts to its value when that value is at most 2147483647, and a larger value such as `2147483648` raises the overflow error |
| Numbers.ConvertToInt32 | src/Records.cs:57 | `Convert.ToInt32` of a null string is 0 |
| Numbers.FormatInt32 | src/Program.cs:382 | `Id.ToString()` is non-empty, starts with `-` exactly for a negative id, and is otherwise all digits |
| Numbers.FormatParseRoundTrip | src/Search.cs:45 | an id written with `ToString()` into a document or form is read back by `Convert.ToInt32` as the same id |
| Numbers.FormatInjective | src/Search.cs:45 | distinct page ids never get the same document reference |
| Numbers.ConvertFormatted | src/Program.cs:416-417 | a `PageId` written with `ToString()` converts back to the same id |
| Http.NullOrEmptyIffBlank | src/Program.cs:99 | a value for which `StringValues.IsNullOrEmpty` holds converts to null or `""`, and for at most one entry the converse holds too; several entries are never null-or-empty, even when all are empty |
| Http.AsString | src/Records.cs:52 | the conversion of `StringValues` to a string is null exactly when no value was sent, is the value itself when one was sent, and joins only the non-empty entries with `,` when several were sent; it is `""` exactly when every entry is empty |
| Http.NonEmptyEntries | src/Records.cs:56-57 | the entries kept are all non-empty, and none are kept exactly when every entry is empty |
| Http.EmptyEntryIgnored | src/Program.cs:258-266 | an empty entry added anywhere to a key that already has a value leaves its string unchanged, so `Id=&Id=5` binds like `Id=5` |
| Http.EmptyEntriesSkipped | src/Program.cs:249-266 | `["","5"]` converts to `5`, `["a",""]` to `a`, and `["",""]` to `""` |
| Http.IsNullOrEmpty | src/Program.cs:99 | defines `StringValues.IsNullOrEmpty`: no value, or one empty value; its agreement with the string conversion is `Http.NullOrEmptyIffBlank` |
| Http.Field | src/Records.cs:52 | `form[key]`: a key that was not posted yields no values, so it reads as null-or-empty rather than failing |
| Http.GetFile | src/Records.cs:59 | `form.Files["Attachment"]` is the first upload under that name, ignoring case, and is null only when there is none |
| Kebab.UpperRunMatch | src/Program.cs:108 | `[A-Z]{2,}` before the lookahead keeps the longest run of at least two capitals after which the lookahead holds, and fails only when no such length exists |
| Kebab.Match | src/Program.cs:108 | a match at the start of the text is non-empty; there is none exactly when the first character is not an ASCII letter or digit; the capital-run alternative wins whenever it matches; when it fails and no lower-case letter follows the first capital, the match is that capital alone |
| Kebab.MatchShape | src/Program.cs:108 | the text a match covers is matched whole by one of the four alternatives |
| Kebab.MatchMaximal | src/Program.cs:108 | a match never stops where its greedy quantifiers could go on: it is not followed by a lower-case letter or digit after a lower-case letter, by a digit after a digit, or by a lower-case letter after a capital |
| Kebab.LexShapes | src/Program.cs:108-109 | every match the scan collects is matched whole by one alternative |
| Kebab.Lex | src/Program.cs:108-109 | defines `pattern.Matches(str)` as a left-to-right scan that takes the match at each position and skips a character where none starts; its properties are `Kebab.LexShapes` and `Kebab.LexKeepsExactlyAlnum` |
| Kebab.ToKebabCase | src/Program.cs:106-110 | defines the conversion as the matches joined with `-` and lower-cased; its properties are `Kebab.KebabIsLoweredTokens`, `Kebab.KebabIsSlug` and `Kebab.KebabIdempotent` |
| Text.Lower | src/Program.cs:109 | `ToLower()` keeps the length and lowers each character on its own: `A`-`Z` become `a`-`z`, every other character is kept |
| Text.Join | src/Program.cs:109 | defines `string.Join`: the parts in order with the separator between neighbours, `""` for no parts; its properties are `Text.JoinSeparated`, `Text.LowerJoin` and `Text.JoinChars` |
| Text.JoinSeparated | src/Program.cs:109 | joining non-empty parts free of the separator character gives text that is empty exactly when there are no parts, does not start or end with the separator, and never holds it twice in a row |
| Text.LowerJoin | src/Program.cs:109 | lower-casing the `-`-joined matches is the same as joining the lower-cased matches |
| Kebab.LexKeepsExactlyAlnum | src/Program.cs:108-109 | the matches put together are exactly the input's ASCII letters and digits in order; other characters only separate matches |
| Kebab.KebabIsLoweredTokens | src/Program.cs:109 | the output is the matches, each lower-cased to `[a-z]+[0-9]*` or `[0-9]+`, joined by `-` |
| Kebab.KebabIsSlug | src/Program.cs:108-109 | the output has only `a-z`, `0-9` and `-`, never starts or ends with `-`, never holds `--`, and is empty exactly when the input has no ASCII letter or digit |
| Kebab.KebabIdempotent | src/Program.cs:108-109 | converting a slug again gives the same slug |
| Kebab.TokenTransitions | src/Program.cs:108 | inside a match no lower-case letter is followed by a capital and no digit by a letter, so those changes always split |
| Kebab.ExampleCamelCase | src/Program.cs:108-109 | `camelCase` becomes `camel-case` |
| Kebab.ExampleUpperRun | src/Program.cs:108-109 | `XMLHttp` becomes `xml-http`: the capital run gives its last letter back |
| Kebab.ExampleTrailingDigits | src/Program.cs:108-109 | `abc123` stays one token |
| Kebab.ExampleLeadingDigits | src/Program.cs:108-109 | `123abc` becomes `123-abc` |
| Kebab.ExampleCapitalsBeforeDigit | src/Program.cs:108-109 | `AB1` becomes `a-b-1`: a capital run whose lookahead fails is split into single capitals |
| Records.FromForm | src/Records.cs:50-62 | the id is unset exactly when the `Id` field is missing or empty; otherwise it is the converted value, or the conversion error escapes; name, content and upload pass through |
| Records.FromPage | src/Records.cs:64-74 | id and content copied, name is `ns/name` with a namespace and `name` without, no upload |
| Records.DisplayName | src/Records.cs:66-71 | the edit name is the namespace's name, `/` and the page name when there is a namespace, and the page name alone otherwise |
| Records.BindWrittenId | src/Records.cs:52-57 | a form whose `Id` was written from an id binds that id, with the converted `Name` and `Content` and no upload |
| Records.EditRoundTrip | src/Records.cs:52-61 | the edit form of a page, posted with its fields unchanged, binds back to the same input, hidden `Id` included |
| Records.EditorForm | src/Program.cs:458-526 | defines the fields `BuildForm` posts: `Name`, an empty `ContentId`, `Content`, and a hidden `Id` written with `ToString()` when the input has one; its property is `Records.EditRoundTrip` |
| Records.Validate | src/Records.cs:77-86 | "Name is required" exactly for a null or blank name; "Content is required" likewise for content; the keep-home-name error exactly when the route is the home page ignoring case and the name is not it exactly; a null name on the home route throws |
| Text.IsWhiteSpace | src/Records.cs:81-85 | defines the characters `char.IsWhiteSpace` accepts, which `NotEmpty` uses to refuse a blank name or content; the rules themselves are `Records.Validate` |
| Text.IsNullOrWhiteSpace | src/Records.cs:81-85 | defines what `NotEmpty` refuses for a string: null, or only white space (the empty string included) |
| Text.EqualsIgnoreCase | src/Records.cs:82 | defines the `OrdinalIgnoreCase` comparison: same length, and equal characters after folding ASCII capitals |
| Records.HomeRuleActive | src/Records.cs:82 | defines when the home-page rule is added: the route's page name equals the home page's ignoring case; `Records.HomeRenameByCaseRefused` shows the consequence |
| Records.ValidIffAllRulesPass | src/Records.cs:81-85 | there are no errors exactly when every rule that applies passes |
| Records.HomeRenameByCaseRefused | src/Records.cs:82-83 | on route `Home-Page`, the name `Home-Page` is refused: the route check ignores case, the name check does not |
| Records.EmptyNameOnHomeRoute | src/Records.cs:81-85 | an empty name on the home route fails both name rules, in declaration order |
| Search.Project | src/Search.cs:43-48 | a page's document has its id in decimal that reads back as the id, its `NsName`, and its segments joined by one space |
| Search.Build | src/Search.cs:34-49 | no pages give no fields and no documents; otherwise the three fields, then one document per page in listing order |
| Search.BuildIndex | src/Search.cs:28-30 | after a build the service has an index, even for no pages |
| Search.SearchTerm | src/Search.cs:19-26 | searching fails exactly when no index was built; otherwise it yields the index's results unchanged and in order |
| Search.LastBuildWins | src/Search.cs:28-51 | after any run of builds the index is exactly the one from the last listing; nothing of earlier builds survives |
| Search.BuiltStaysBuilt | src/Search.cs:30 | once built, the service stays built through any further builds |
| Search.SearchAfterBuild | src/Search.cs:21-25 | search before the first build fails; after a build it answers from that build |
| Search.RebuildIdempotent | src/Search.cs:28-51 | rebuilding from an unchanged listing leaves the index as it was |
| Search.DocumentsMatchListing | src/Search.cs:41-48 | every document projects a page of the listing, and every listed page's id is a document reference |
| Endpoints.NewPage | src/Program.cs:96-115 | a missing or empty `pageName` redirects to `/` without converting; any other value redirects to `/` plus its slug |
| Endpoints.NewPageTarget | src/Program.cs:99-113 | the target is `/` and a slug; it is `/` alone exactly when no name was given or the name has no ASCII letter or digit; asking for the target's slug redirects to the same place |
| Endpoints.FirstWithId | src/Program.cs:80 | the first page with the id, or null exactly when no page has it |
| Endpoints.LinkTo | src/Program.cs:83 | defines the listed link: `/` plus the page's `NsName`, titled from `NsName` |
| Endpoints.ResultLink | src/Program.cs:79-84 | one result lists at most one link |
| Endpoints.ResultLinkFaults | src/Program.cs:79 | one result ends the request with the conversion fault exactly when its reference is not a number `Convert.ToInt32` accepts |
| Endpoints.ResultLinkOfId | src/Program.cs:79-84 | a reference written from an id lists the first page with that id, or nothing when no page has it |
| Endpoints.ResultLinksInOrder | src/Program.cs:77-85 | the listing is built result by result in order, and the first fault is the one reported |
| Endpoints.ResultLinks | src/Program.cs:77-85 | the loop lists at most one link per result |
| Endpoints.ResultLinksNeverFault | src/Program.cs:79 | references written from ids never make the listing fail, even after pages changed |
| Endpoints.ResultLinksAllListed | src/Program.cs:77-85 | when every reference names a listed page, there is exactly one link per result |
| Endpoints.SearchPage | src/Program.cs:67-94 | search before the index is built fails; a listing is exactly the links of the engine's results |
| Endpoints.SearchAfterBuildLists | src/Program.cs:73-85 | after a build, search lists pages and never fails; when built from the current listing it lists every result |
| Endpoints.Startup | src/Program.cs:38-39 | the index is built from the store's listing before any request |
| Endpoints.StartupServesSearch | src/Program.cs:38-39 | after startup, search never reports the unbuilt-index fault: it answers from the startup listing's index, and while the store is unchanged the search page lists one link per result |
| Endpoints.DeletePageHandler | src/Program.cs:217-242 | a rejected token is the antiforgery fault; no `Id` means no store call and a redirect to `/`; an `Id` that converts always makes `DeletePage` of that id, protecting the home page by name, the first call, and at most a rebuild follows it; an `Id` that does not convert gives the conversion fault with no call; the index is rebuilt exactly when `DeletePage` reported success; every completed request redirects to `/` |
| Endpoints.DeleteKeepsIndexDiscipline | src/Program.cs:231-239 | a page delete rebuilds the index right after a successful store call and at no other time |
| Endpoints.DeleteButtonTargetsPage | src/Program.cs:222-231 | the delete button's hidden `Id` (the page id as text) makes the handler delete exactly that page |
| Endpoints.DeleteButtonForm | src/Program.cs:379-394 | defines the delete button's form: a hidden `Id` with the page id written by `ToString()`; its property is `Endpoints.DeleteButtonTargetsPage` |
| Endpoints.DeleteFieldTargetsPage | src/Program.cs:222-231 | any form whose `Id` is a page id written with `ToString()` deletes exactly that page, protecting the home page by name |
| Endpoints.DeleteAttachmentHandler | src/Program.cs:244-284 | never rebuilds; a rejected token is the antiforgery fault; a missing `Id` or `PageId` redirects to `/` with no store call; with both present, a `PageId` that converts makes exactly one `DeleteAttachment` of that page and the `Id` text, and one that does not is the conversion fault with no call; failure goes to `/` plus the returned page's `Name`, or to `/`; success goes to `/` plus its `NsName`, and throws when no page came back |
| Endpoints.AttachmentDeleteKeepsIndexDiscipline | src/Program.cs:266-283 | an attachment delete keeps the index rule: it makes no indexed change and no rebuild |
| Endpoints.AttachmentButtonTargetsFile | src/Program.cs:249-266 | the form beside an attachment (hidden `Id` is the file id, hidden `PageId` is the page id as text) makes the handler delete exactly that file of that page, and nothing else |
| Endpoints.AttachmentDeleteForm | src/Program.cs:413-431 | defines the attachment's delete form: hidden `Id` with the file id and hidden `PageId` with the page id written by `ToString()`; its property is `Endpoints.AttachmentButtonTargetsFile` |
| Endpoints.AttachmentFieldsTargetFile | src/Program.cs:249-266 | any form whose `Id` is a file id and whose `PageId` is a written page id deletes exactly that file of that page |
| Endpoints.SavePageHandler | src/Program.cs:287-323 | a rejected token is the antiforgery fault; an `Id` that does not convert, and a null name on the home route, end with their faults and no call; the store is called only with bound, error-free input, and such input is always saved first; invalid input re-renders the editor with exactly its errors and no store call; a failed save ends blank; the index is rebuilt exactly after a successful save; a successful save that returns a page redirects to `/` plus its `NsName` |
| Endpoints.SaveBound | src/Program.cs:296-322 | for input that has been bound: a validator fault ends with that fault and no call; validation errors re-render the editor with exactly those errors and no call; error-free input is saved first, and at most a rebuild follows; the index is rebuilt exactly after a successful save; a failed save ends blank; the response redirects exactly when the save succeeded and returned a page, to `/` plus its `NsName`; a successful save that returns no page ends with the null-reference fault |
| Endpoints.SaveKeepsIndexDiscipline | src/Program.cs:313-320 | a save rebuilds the index right after a successful store call and at no other time |
| Endpoints.SaveKeepsSearchCurrent | src/Program.cs:313-322 | after a save request the index is the store's new listing when the save succeeded, and unchanged otherwise |
| Endpoints.DeleteKeepsSearchCurrent | src/Program.cs:231-239 | after a delete request the index follows the store only when the delete succeeded |
| Endpoints.AttachmentDeleteLeavesSearch | src/Program.cs:266-283 | deleting an attachment never changes the index |

## Left out

- The `Wiki` store is not part of this model. Its `GetPage`, `SavePage`, `DeletePage`, `DeleteAttachment`, `GetFile` and `ListAllPages` are not in the source files modelled. Their replies are parameters, and listings are given values.
- HTML assembly is left out: src/UI.cs, src/Render.cs and the render helpers of src/Program.cs. The model keeps only the names and values of the fields the edit, delete and attachment forms post: the edit form's visible `Name` input and `Content` textarea and its hidden `Id` and `ContentId`, the delete form's hidden `Id`, and the attachment form's hidden `Id` and `PageId`.
- `KebabToNormalCase` is left out because it uses culture-dependent title-casing. A search link keeps the raw `NsName` as its title.
- Markdown rendering and HTML sanitising are left out. They are foreign libraries.
- Lunr's tokenising, ranking, scores and match data are left out. A query is answered by an arbitrary `Engine`, and a result carries only its document reference.
- Antiforgery validation is reduced to a boolean: a rejected token is a fault before anything else.
- Logging, dependency injection and async/await are left out. The concurrent swap of the index is also left out; a build is one atomic step.
- The GET handlers for `/`, `/edit`, `/attachment` and `/{pageName}` are left out. They only read and render.
- Dates are left out: `LastModifiedUtc` on pages and attachments.
- Culture is fixed to the invariant culture. Lower-casing is ASCII, and number parsing and formatting use `-` and `+` only.
- Kebab.IsWordChar: for `\b`, every non-ASCII character counts as a word character. .NET counts only Unicode letters, marks, decimal digits, connector punctuation and the zero-width joiners. So non-ASCII punctuation right after a capital run is a boundary in .NET but not here.
- Records.HomeRuleActive: the case-insensitive route comparison folds ASCII letters only. .NET's `OrdinalIgnoreCase` also folds non-ASCII letters.
- Http.Field: form keys are looked up exactly as written. ASP.NET's form collection ignores case in keys.
- Http.StringValues: individual null entries inside a multi-value key are not represented.
- Store reads (`ListAllPages` for search links and `AllPages` for the side panel) are not recorded in `Endpoints.Outcome`; the search mapping takes the listing as a parameter instead.
- Records.EditorForm: the form is modelled as posting each field's value unchanged. Browsers send a textarea's line breaks as CRLF and drop one leading newline, and they strip line breaks from a text input, so `Records.EditRoundTrip` is stated for the form as modelled and does not hold in a browser for a name or content with those characters.
- Numbers.ParseInt32: the contract states the empty text, text without digits, and the accepted grammar (`Numbers.ParseWellFormed`). Trailing NULs and the format errors of other malformed text are defined in the body only.
- Kebab.ToKebabCase, Kebab.Lex, Text.Join, Text.IsWhiteSpace, Text.IsNullOrWhiteSpace, Text.EqualsIgnoreCase, Http.IsNullOrEmpty, Records.HomeRuleActive, Records.EditorForm, Endpoints.LinkTo, Endpoints.DeleteButtonForm and Endpoints.AttachmentDeleteForm are definitions without a contract of their own. The lemmas named in their rows state their properties.

=== FILE: endpoints.dfy ===
/**
 * The request handlers around the store: `/new-page`, `/search`,
 * `/delete-page`, `/delete-attachment`, the page save `POST /{pageName}`,
 * and the index build at startup.
 *
 * A handler is modelled as the store and index calls it makes, in order,
 * and the response it ends with. The store is not modelled: `Wiki` holds its
 * replies to each call, as functions of the call's arguments.
 */
module Endpoints {
  import opened Wrappers
  import opened Text
  import opened Numbers
  import opened Http
  import opened Records
  import opened Search
  import Kebab

  const HomePageName := "home-page"

  /** `SavePage`'s `(isOk, page, exception)`; the exception is only logged. */
  datatype SaveReply = SaveReply(isOk: bool, page: Option<Page>)

  /** `DeleteAttachment`'s `(isOk, page, exception)`. */
  datatype AttachmentReply = AttachmentReply(isOk: bool, page: Option<Page>)

  /** The store's replies. `deletePage` reports only `isOk`. */
  datatype Wiki = Wiki(
    savePage: PageInput -> SaveReply,
    deletePage: (Int32, string) -> bool,
    deleteAttachment: (Int32, string) -> AttachmentReply)

  /** A call a handler makes on the store or the search index. */
  datatype Call =
    | SavePage(input: PageInput)
    | DeletePage(id: Int32, protectedName: string)
    | DeleteAttachment(pageId: Int32, fileId: string)
    | RebuildIndex

  /** One search hit as listed: where it links, and the address it is titled from. */
  datatype Link = Link(href: string, nsName: string)

  datatype Response =
    | Redirect(location: string)
    | Editor(input: PageInput, errors: seq<ValidationFailure>)  // the edit form again, with its errors
    | Blank                                                      // the handler returns without writing
    | Listing(links: seq<Link>)                                  // the search results page
    | ServerError(fault: Fault)

  datatype Outcome = Outcome(calls: seq<Call>, response: Response)

  // ---- The rule the index depends on ----

  /** What the store reported for a call. */
  predicate Succeeded(c: Call, wiki: Wiki) {
    match c
    case SavePage(input) => wiki.savePage(input).isOk
    case DeletePage(id, name) => wiki.deletePage(id, name)
    case DeleteAttachment(pageId, fileId) => wiki.deleteAttachment(pageId, fileId).isOk
    case RebuildIndex => false
  }

  /** Calls that change what the index holds; attachments are not indexed. */
  predicate ChangesIndexedText(c: Call) {
    c.SavePage? || c.DeletePage?
  }

  /**
   * The index is rebuilt right after each successful save or page delete,
   * and at no other time.
   */
  predicate IndexDiscipline(o: Outcome, wiki: Wiki) {
    && (forall j :: 0 <= j < |o.calls| && o.calls[j] == RebuildIndex ==>
          j > 0 && ChangesIndexedText(o.calls[j - 1]) && Succeeded(o.calls[j - 1], wiki))
    && (forall j :: 0 <= j < |o.calls| && ChangesIndexedText(o.calls[j]) && Succeeded(o.calls[j], wiki) ==>
          j + 1 < |o.calls| && o.calls[j + 1] == RebuildIndex)
  }

  /**
   * The rule for a handler that makes one store call, possibly followed by a
   * rebuild: it holds when the rebuild is there exactly when that call
   * changed indexed text and succeeded.
   */
  lemma OneCallDiscipline(o: Outcome, wiki: Wiki)
    requires |o.calls| <= 2
    requires |o.calls| > 0 ==> o.calls[0] != RebuildIndex
    requires |o.calls| == 2 ==> o.calls[1] == RebuildIndex
    requires |o.calls| > 0 ==> (|o.calls| == 2 <==> ChangesIndexedText(o.calls[0]) && Succeeded(o.calls[0], wiki))
    ensures IndexDiscipline(o, wiki)
  {
  }

  /** The search service after a handler's calls, with `listing` the store's pages once the call is made. */
  function Replay(s: SearchService, calls: seq<Call>, listing: seq<Page>): SearchService
    decreases |calls|
  {
    if |calls| == 0 then s
    else if calls[0] == RebuildIndex then Replay(BuildIndex(s, listing), calls[1..], listing)
    else Replay(s, calls[1..], listing)
  }

  // ---- GET /new-page ----

  /** `/new-page?pageName=…`: to `/` when the name is missing or empty, else to the slug of the name. */
  function NewPage(pageName: StringValues): (r: Response)
    ensures r.Redirect? && |r.location| > 0 && r.location[0] == '/'
    ensures IsNullOrEmpty(pageName) ==> r == Redirect("/")
    ensures !IsNullOrEmpty(pageName) ==> r == Redirect("/" + Kebab.ToKebabCase(AsString(pageName).value))
  {
    if IsNullOrEmpty(pageName) then Redirect("/")
    else Redirect("/" + Kebab.ToKebabCase(AsString(pageName).value))
  }

  /**
   * The redirect target is `/` followed by a slug; it is `/` alone exactly
   * when no name was given or the name has no ASCII letter or digit; and
   * asking for the target's own slug redirects to the same place.
   */
  lemma NewPageTarget(pageName: StringValues)
    ensures Kebab.IsSlug(NewPage(pageName).location[1..])
    ensures NewPage(pageName) == Redirect("/") <==>
      IsNullOrEmpty(pageName) ||
      forall j :: 0 <= j < |AsString(pageName).value| ==> !IsAlnum(AsString(pageName).value[j])
    ensures NewPage(pageName).location != "/" ==> NewPage([NewPage(pageName).location[1..]]) == NewPage(pageName)
  {
    var r := NewPage(pageName);
    if !IsNullOrEmpty(pageName) {
      var name := AsString(pageName).value;
      Kebab.KebabIsSlug(name);
      assert r.location[1..] == Kebab.ToKebabCase(name);
      if r.location != "/" {
        Kebab.KebabIdempotent(name);
      }
    }
  }

  // ---- GET /search ----

  /** `all.FirstOrDefault(x => x.Id == id)`. */
  function FirstWithId(all: seq<Page>, id: Int32): (r: Option<Page>)
    ensures r.Some? ==> (r.value.id == id &&
      exists k :: 0 <= k < |all| && all[k] == r.value && forall j :: 0 <= j < k ==> all[j].id != id)
    ensures r.None? <==> forall k :: 0 <= k < |all| ==> all[k].id != id
  {
    if |all| == 0 then None
    else if all[0].id == id then Some(all[0])
    else
      var r := FirstWithId(all[1..], id);
      if r.Some? then
        var k :| 0 <= k < |all[1..]| && all[1..][k] == r.value && forall j :: 0 <= j < k ==> all[1..][j].id != id;
        assert all[k + 1] == r.value;
        r
      else r
  }

  /** The link listed for a page. */
  function LinkTo(p: Page): Link {
    Link("/" + p.nsName, p.nsName)
  }

  /**
   * The body of the loop over search results, for one result: its reference
   * is converted with `Convert.ToInt32` (whose exception escapes), and a link
   * is listed for the first page with that id, if any.
   */
  function ResultLink(x: SearchResult, all: seq<Page>): (r: Result<seq<Link>, Fault>)
    ensures r.Success? ==> |r.value| <= 1
  {
    match ConvertToInt32(Some(x.documentReference))
    case Failure(e) => Failure(BadNumber(e))
    case Success(id) =>
      match FirstWithId(all, id)
      case None => Success([])
      case Some(p) => Success([LinkTo(p)])
  }

  /** A result ends the request exactly when its reference is not a number `Convert.ToInt32` accepts. */
  lemma ResultLinkFaults(x: SearchResult, all: seq<Page>)
    ensures ResultLink(x, all).Failure? <==> ParseInt32(x.documentReference).Failure?
    ensures ResultLink(x, all).Failure? ==> ResultLink(x, all).error == BadNumber(ParseInt32(x.documentReference).error)
  {
  }

  /** Results handled one after another: the first fault wins, links are appended in order. */
  function Then(a: Result<seq<Link>, Fault>, b: Result<seq<Link>, Fault>): Result<seq<Link>, Fault> {
    if a.Failure? then a else if b.Failure? then b else Success(a.value + b.value)
  }

  /** The loop over search results, from the first to the last. */
  function ResultLinks(results: seq<SearchResult>, all: seq<Page>): (r: Result<seq<Link>, Fault>)
    ensures r.Success? ==> |r.value| <= |results|
    decreases |results|
  {
    if |results| == 0 then Success([])
    else Then(ResultLink(results[0], all), ResultLinks(results[1..], all))
  }

  /**
   * The listing is built result by result, in result order: splitting the
   * results anywhere splits the listing at the same place, and the first
   * fault, if any, is the one reported.
   */
  lemma {:induction false} ResultLinksInOrder(a: seq<SearchResult>, b: seq<SearchResult>, all: seq<Page>)
    ensures ResultLinks(a + b, all) == Then(ResultLinks(a, all), ResultLinks(b, all))
    decreases |a|
  {
    if |a| > 0 {
      var x := ResultLink(a[0], all);
      assert (a + b)[0] == a[0];
      assert (a + b)[1..] == a[1..] + b;
      calc {
        ResultLinks(a + b, all);
        Then(x, ResultLinks(a[1..] + b, all));
        { ResultLinksInOrder(a[1..], b, all); }
        Then(x, Then(ResultLinks(a[1..], all), ResultLinks(b, all)));
        { ThenAssociative(x, ResultLinks(a[1..], all), ResultLinks(b, all)); }
        Then(Then(x, ResultLinks(a[1..], all)), ResultLinks(b, all));
        Then(ResultLinks(a, all), ResultLinks(b, all));
      }
    } else {
      assert a + b == b;
      var rb := ResultLinks(b, all);
      if rb.Success? {
        assert [] + rb.value == rb.value;
      }
    }
  }

  lemma ThenAssociative(x: Result<seq<Link>, Fault>, y: Result<seq<Link>, Fault>, z: Result<seq<Link>, Fault>)
    ensures Then(x, Then(y, z)) == Then(Then(x, y), z)
  {
    if x.Success? && y.Success? && z.Success? {
      assert x.value + (y.value + z.value) == (x.value + y.value) + z.value;
    }
  }

  /** A reference that is some id written with `ToString()`. */
  predicate WrittenId(ref: string) {
    exists n: Int32 :: ref == FormatInt32(n)
  }

  /** A reference written from an id is listed as the first page with that id, or skipped. */
  lemma ResultLinkOfId(n: Int32, all: seq<Page>)
    ensures ResultLink(SearchResult(FormatInt32(n)), all) ==
      (match FirstWithId(all, n) case None => Success([]) case Some(p) => Success([LinkTo(p)]))
  {
    FormatParseRoundTrip(n);
  }

  /** A reference written from an id never makes its step fail. */
  lemma ResultLinkOfWrittenId(x: SearchResult, all: seq<Page>)
    requires WrittenId(x.documentReference)
    ensures ResultLink(x, all).Success?
  {
    var n: Int32 :| x.documentReference == FormatInt32(n);
    FormatParseRoundTrip(n);
  }

  /** References written from page ids never make the listing fail, even when the pages changed since the build. */
  lemma {:induction false} ResultLinksNeverFault(results: seq<SearchResult>, all: seq<Page>)
    requires forall k :: 0 <= k < |results| ==> WrittenId(results[k].documentReference)
    ensures ResultLinks(results, all).Success?
    decreases |results|
  {
    if |results| > 0 {
      ResultLinkOfWrittenId(results[0], all);
      assert forall k :: 0 <= k < |results| - 1 ==> results[1..][k] == results[k + 1];
      ResultLinksNeverFault(results[1..], all);
    }
  }

  /** A reference that is the id of a listed page, written with `ToString()`. */
  predicate ListedRef(all: seq<Page>, ref: string) {
    exists p :: p in all && ref == FormatInt32(p.id)
  }

  /** A reference written from the id of a listed page yields exactly one link. */
  lemma ResultLinkListed(x: SearchResult, all: seq<Page>)
    requires ListedRef(all, x.documentReference)
    ensures ResultLink(x, all).Success? && |ResultLink(x, all).value| == 1
  {
    var p :| p in all && x.documentReference == FormatInt32(p.id);
    FormatParseRoundTrip(p.id);
    var k :| 0 <= k < |all| && all[k] == p;
    assert FirstWithId(all, p.id).Some?;
  }

  /** When every reference names a listed page, every result is listed, one link each. */
  lemma {:induction false} ResultLinksAllListed(results: seq<SearchResult>, all: seq<Page>)
    requires forall k :: 0 <= k < |results| ==> ListedRef(all, results[k].documentReference)
    ensures ResultLinks(results, all).Success?
    ensures |ResultLinks(results, all).value| == |results|
    decreases |results|
  {
    if |results| > 0 {
      ResultLinkListed(results[0], all);
      assert forall k :: 0 <= k < |results| - 1 ==> results[1..][k] == results[k + 1];
      ResultLinksAllListed(results[1..], all);
    }
  }

  /** `/search?term=…`: search the index, then list the pages the results name. */
  function SearchPage(service: SearchService, term: StringValues, engine: Engine, all: seq<Page>): (r: Response)
    ensures service.index.None? ==> r == ServerError(IndexNotBuilt)
    ensures r.Listing? ==> (service.index.Some? &&
      ResultLinks(engine(service.index.value, AsString(term)), all) == Success(r.links))
  {
    match SearchTerm(service, AsString(term), engine)
    case Failure(f) => ServerError(f)
    case Success(results) =>
      match ResultLinks(results, all)
      case Failure(f) => ServerError(f)
      case Success(links) => Listing(links)
  }

  /** The engine only answers with references of documents in the index. */
  predicate AnswersFromIndex(engine: Engine, idx: LunrIndex, term: Option<string>) {
    forall x :: x in engine(idx, term) ==> IsDocumentId(idx, x.documentReference)
  }

  /**
   * Once the index is built, a search lists pages and never fails, however
   * stale the index is; when it was built from the current listing, every
   * result is listed.
   */
  lemma SearchAfterBuildLists(s: SearchService, built: seq<Page>, term: StringValues, engine: Engine, all: seq<Page>)
    requires AnswersFromIndex(engine, Build(built), AsString(term))
    ensures SearchPage(BuildIndex(s, built), term, engine, all).Listing?
    ensures built == all ==> |SearchPage(BuildIndex(s, built), term, engine, all).links| == |engine(Build(built), AsString(term))|
  {
    var idx := Build(built);
    var results := engine(idx, AsString(term));
    forall k | 0 <= k < |results|
      ensures ListedRef(built, results[k].documentReference)
      ensures WrittenId(results[k].documentReference)
    {
      assert results[k] in results;
      var i :| 0 <= i < |idx.documents| && idx.documents[i].id == results[k].documentReference;
      assert built[i] in built;
      assert results[k].documentReference == FormatInt32(built[i].id);
    }
    ResultLinksNeverFault(results, all);
    if built == all {
      ResultLinksAllListed(results, all);
    }
  }

  // ---- Startup ----

  /** At startup the index is built once from the store's listing, before any request is served. */
  function Startup(listing: seq<Page>): (s: SearchService)
    ensures s.index == Some(Build(listing))
  {
    BuildIndex(Unbuilt, listing)
  }

  /**
   * From the first request on, search answers from the startup listing's
   * index: it never reports the unbuilt-index fault, and while the store
   * is unchanged the search page lists one link per result.
   */
  lemma StartupServesSearch(listing: seq<Page>, term: StringValues, engine: Engine)
    requires AnswersFromIndex(engine, Build(listing), AsString(term))
    ensures SearchTerm(Startup(listing), AsString(term), engine) == Success(engine(Build(listing), AsString(term)))
    ensures SearchPage(Startup(listing), term, engine, listing).Listing?
    ensures |SearchPage(Startup(listing), term, engine, listing).links| == |engine(Build(listing), AsString(term))|
  {
    SearchAfterBuildLists(Unbuilt, listing, term, engine, listing);
  }

  // ---- POST /delete-page ----

  /**
   * `/delete-page`: without an `Id` nothing is deleted; otherwise the page is
   * deleted (the home page protected by name) and the index rebuilt only if
   * the store reports success. Every completed request goes back to `/`.
   */
  function DeletePageHandler(tokenValid: bool, form: Form, wiki: Wiki): (o: Outcome)
    ensures o.response.ServerError? || o.response == Redirect("/")
    ensures o.response.ServerError? ==> o.calls == []
    ensures tokenValid && IsNullOrEmpty(Field(form, "Id")) ==> o == Outcome([], Redirect("/"))
    ensures |o.calls| > 0 ==> (tokenValid && o.calls[0].DeletePage? &&
      o.calls[0].protectedName == HomePageName &&
      ConvertToInt32(AsString(Field(form, "Id"))) == Success(o.calls[0].id))
    ensures RebuildIndex in o.calls <==> |o.calls| > 0 && Succeeded(o.calls[0], wiki)
    ensures |o.calls| <= 2 && (|o.calls| == 2 ==> o.calls[1] == RebuildIndex)
    ensures !tokenValid ==> o == Outcome([], ServerError(AntiforgeryRejected))
    ensures tokenValid && !IsNullOrEmpty(Field(form, "Id")) ==>
      match ConvertToInt32(AsString(Field(form, "Id")))
      case Success(n) => |o.calls| > 0 && o.calls[0] == DeletePage(n, HomePageName)
      case Failure(e) => o == Outcome([], ServerError(BadNumber(e)))
  {
    if !tokenValid then Outcome([], ServerError(AntiforgeryRejected))
    else
      var id := Field(form, "Id");
      if IsNullOrEmpty(id) then Outcome([], Redirect("/"))
      else match ConvertToInt32(AsString(id))
        case Failure(e) => Outcome([], ServerError(BadNumber(e)))
        case Success(n) =>
          var call := DeletePage(n, HomePageName);
          if wiki.deletePage(n, HomePageName) then Outcome([call, RebuildIndex], Redirect("/"))
          else Outcome([call], Redirect("/"))
  }

  /** Deleting a page rebuilds the index right after a successful delete, and at no other time. */
  lemma DeleteKeepsIndexDiscipline(tokenValid: bool, form: Form, wiki: Wiki)
    ensures IndexDiscipline(DeletePageHandler(tokenValid, form, wiki), wiki)
  {
    var o := DeletePageHandler(tokenValid, form, wiki);
    assert |o.calls| <= 2 && (|o.calls| > 0 ==> o.calls[0].DeletePage?);
    assert |o.calls| == 2 ==> o.calls[1] == RebuildIndex;
    OneCallDiscipline(o, wiki);
  }

  /** The delete button's form: a hidden `Id` holding the page id written with `ToString()`. */
  function DeleteButtonForm(p: Page): Form {
    Form(map["Id" := [FormatInt32(p.id)]], [])
  }

  /** Pressing a page's delete button deletes exactly that page. */
  lemma DeleteButtonTargetsPage(p: Page, wiki: Wiki)
    ensures var o := DeletePageHandler(true, DeleteButtonForm(p), wiki);
      |o.calls| > 0 && o.calls[0] == DeletePage(p.id, HomePageName)
  {
    assert Field(DeleteButtonForm(p), "Id") == [FormatInt32(p.id)];
    DeleteFieldTargetsPage(DeleteButtonForm(p), p.id, wiki);
  }

  /** A form whose `Id` is a written page id deletes that page. */
  lemma DeleteFieldTargetsPage(form: Form, id: Int32, wiki: Wiki)
    requires Field(form, "Id") == [FormatInt32(id)]
    ensures var o := DeletePageHandler(true, form, wiki);
      |o.calls| > 0 && o.calls[0] == DeletePage(id, HomePageName)
  {
    ConvertFormatted(id);
    assert AsString(Field(form, "Id")) == Some(FormatInt32(id));
  }

  // ---- POST /delete-attachment ----

  /**
   * `/delete-attachment`: needs both `Id` and `PageId`; never rebuilds the
   * index. On failure it returns to the page by its bare name if the store
   * returned one, else to `/`; on success to the page's address.
   */
  function DeleteAttachmentHandler(tokenValid: bool, form: Form, wiki: Wiki): (o: Outcome)
    ensures RebuildIndex !in o.calls && |o.calls| <= 1
    ensures tokenValid && (IsNullOrEmpty(Field(form, "Id")) || IsNullOrEmpty(Field(form, "PageId"))) ==>
      o == Outcome([], Redirect("/"))
    ensures |o.calls| == 1 ==> (o.calls[0].DeleteAttachment? &&
      ConvertToInt32(AsString(Field(form, "PageId"))) == Success(o.calls[0].pageId) &&
      Some(o.calls[0].fileId) == AsString(Field(form, "Id")))
    ensures |o.calls| == 1 && o.calls[0].DeleteAttachment? ==>
      var reply := wiki.deleteAttachment(o.calls[0].pageId, o.calls[0].fileId);
      (!reply.isOk ==> o.response == Redirect(if reply.page.Some? then "/" + reply.page.value.name else "/"))
    ensures |o.calls| == 1 && o.calls[0].DeleteAttachment? ==>
      var reply := wiki.deleteAttachment(o.calls[0].pageId, o.calls[0].fileId);
      (reply.isOk ==> o.response == (if reply.page.Some? then Redirect("/" + reply.page.value.nsName) else ServerError(NullReference)))
    ensures !tokenValid ==> o == Outcome([], ServerError(AntiforgeryRejected))
    ensures tokenValid && !IsNullOrEmpty(Field(form, "Id")) && !IsNullOrEmpty(Field(form, "PageId")) ==>
      match ConvertToInt32(AsString(Field(form, "PageId")))
      case Success(n) => o.calls == [DeleteAttachment(n, AsString(Field(form, "Id")).value)]
      case Failure(e) => o == Outcome([], ServerError(BadNumber(e)))
  {
    if !tokenValid then Outcome([], ServerError(AntiforgeryRejected))
    else
      var id := Field(form, "Id");
      var pageId := Field(form, "PageId");
      if IsNullOrEmpty(id) || IsNullOrEmpty(pageId) then Outcome([], Redirect("/"))
      else match ConvertToInt32(AsString(pageId))
        case Failure(e) => Outcome([], ServerError(BadNumber(e)))
        case Success(n) =>
          var fileId := AsString(id).value;
          var reply := wiki.deleteAttachment(n, fileId);
          var call := [DeleteAttachment(n, fileId)];
          if !reply.isOk then
            Outcome(call, Redirect(if reply.page.Some? then "/" + reply.page.value.name else "/"))
          else match reply.page
            case None => Outcome(call, ServerError(NullReference))
            case Some(p) => Outcome(call, Redirect("/" + p.nsName))
  }

  /** Deleting an attachment keeps the rule trivially: it makes no indexed change and no rebuild. */
  lemma AttachmentDeleteKeepsIndexDiscipline(tokenValid: bool, form: Form, wiki: Wiki)
    ensures IndexDiscipline(DeleteAttachmentHandler(tokenValid, form, wiki), wiki)
  {
    var o := DeleteAttachmentHandler(tokenValid, form, wiki);
    assert |o.calls| > 0 ==> o.calls[0].DeleteAttachment?;
    OneCallDiscipline(o, wiki);
  }

  /** The form beside each attachment: hidden `Id` (the file id) and `PageId` (the page id written with `ToString()`). */
  function AttachmentDeleteForm(p: Page, a: Attachment): Form {
    Form(map["Id" := [a.fileId], "PageId" := [FormatInt32(p.id)]], [])
  }

  /** Deleting an attachment from its page's editor deletes that file of that page. */
  lemma AttachmentButtonTargetsFile(p: Page, a: Attachment, wiki: Wiki)
    requires a.fileId != ""
    ensures DeleteAttachmentHandler(true, AttachmentDeleteForm(p, a), wiki).calls == [DeleteAttachment(p.id, a.fileId)]
  {
    var form := AttachmentDeleteForm(p, a);
    assert Field(form, "Id") == [a.fileId];
    assert Field(form, "PageId") == [FormatInt32(p.id)];
    AttachmentFieldsTargetFile(form, p.id, a.fileId, wiki);
  }

  /** A form whose `Id` is a file id and whose `PageId` is a written page id deletes that file of that page. */
  lemma AttachmentFieldsTargetFile(form: Form, pageId: Int32, fileId: string, wiki: Wiki)
    requires fileId != ""
    requires Field(form, "Id") == [fileId]
    requires Field(form, "PageId") == [FormatInt32(pageId)]
    ensures DeleteAttachmentHandler(true, form, wiki).calls == [DeleteAttachment(pageId, fileId)]
  {
    ConvertFormatted(pageId);
    assert AsString(Field(form, "PageId")) == Some(FormatInt32(pageId));
    assert AsString(Field(form, "Id")) == Some(fileId);
  }

  // ---- POST /{pageName} ----

  /**
   * Saving a page: bind the form, validate it against the route's page name,
   * re-render the editor with the errors if any; otherwise save, and only
   * after a successful save rebuild the index and redirect to the page.
   */
  function SavePageHandler(route: Option<string>, tokenValid: bool, form: Form, wiki: Wiki): (o: Outcome)
    ensures |o.calls| > 0 ==> (tokenValid && FromForm(form).Success? &&
      Validate(route.GetOr(""), HomePageName, FromForm(form).value) == Success([]) &&
      o.calls[0] == SavePage(FromForm(form).value))
    ensures o.response.Editor? ==> (o.calls == [] && |o.response.errors| > 0 &&
      Validate(route.GetOr(""), HomePageName, o.response.input) == Success(o.response.errors))
    ensures RebuildIndex in o.calls <==> |o.calls| > 0 && Succeeded(o.calls[0], wiki)
    ensures o.response == Blank <==> |o.calls| > 0 && !Succeeded(o.calls[0], wiki)
    ensures o.response.Redirect? ==> (|o.calls| == 2 &&
      var reply := wiki.savePage(o.calls[0].input);
      reply.isOk && reply.page.Some? && o.response.location == "/" + reply.page.value.nsName)
    ensures tokenValid && FromForm(form).Success? ==>
      var input := FromForm(form).value;
      var v := Validate(route.GetOr(""), HomePageName, input);
      (v.Success? && |v.value| > 0 ==> o == Outcome([], Editor(input, v.value))) &&
      (v == Success([]) ==> (|o.calls| > 0 && o.calls[0] == SavePage(input) &&
        (var reply := wiki.savePage(input);
         reply.isOk && reply.page.Some? ==> o.response == Redirect("/" + reply.page.value.nsName))))
    ensures !tokenValid ==> o == Outcome([], ServerError(AntiforgeryRejected))
    ensures tokenValid && FromForm(form).Failure? ==> o == Outcome([], ServerError(BadNumber(FromForm(form).error)))
    ensures tokenValid && FromForm(form).Success? && Validate(route.GetOr(""), HomePageName, FromForm(form).value).Failure? ==>
      o == Outcome([], ServerError(Validate(route.GetOr(""), HomePageName, FromForm(form).value).error))
  {
    if !tokenValid then Outcome([], ServerError(AntiforgeryRejected))
    else match FromForm(form)
      case Failure(e) => Outcome([], ServerError(BadNumber(e)))
      case Success(input) => SaveBound(route.GetOr(""), input, wiki)
  }

  /** The save handler once the form is bound: validate, then save, rebuild and redirect. */
  function SaveBound(pageName: string, input: PageInput, wiki: Wiki): (o: Outcome)
    ensures var v := Validate(pageName, HomePageName, input);
      && (v.Failure? ==> o == Outcome([], ServerError(v.error)))
      && (v.Success? && |v.value| > 0 ==> o == Outcome([], Editor(input, v.value)))
      && (v == Success([]) ==> 0 < |o.calls| <= 2 && o.calls[0] == SavePage(input))
    ensures |o.calls| == 2 ==> o.calls[1] == RebuildIndex
    ensures RebuildIndex in o.calls <==> |o.calls| > 0 && Succeeded(o.calls[0], wiki)
    ensures o.response == Blank <==> |o.calls| > 0 && !Succeeded(o.calls[0], wiki)
    ensures o.response.Redirect? <==> |o.calls| == 2 && wiki.savePage(input).page.Some?
    ensures o.response.Redirect? ==> o.response.location == "/" + wiki.savePage(input).page.value.nsName
    ensures (Validate(pageName, HomePageName, input) == Success([]) && wiki.savePage(input).isOk &&
      wiki.savePage(input).page.None?) ==> o.response == ServerError(NullReference)
  {
    match Validate(pageName, HomePageName, input)
    case Failure(f) => Outcome([], ServerError(f))
    case Success(errors) =>
      if |errors| > 0 then Outcome([], Editor(input, errors))
      else
        var reply := wiki.savePage(input);
        if !reply.isOk then Outcome([SavePage(input)], Blank)
        else match reply.page
          case None => Outcome([SavePage(input), RebuildIndex], ServerError(NullReference))
          case Some(p) => Outcome([SavePage(input), RebuildIndex], Redirect("/" + p.nsName))
  }

  /** Saving rebuilds the index right after a successful save, and at no other time. */
  lemma SaveKeepsIndexDiscipline(route: Option<string>, tokenValid: bool, form: Form, wiki: Wiki)
    ensures IndexDiscipline(SavePageHandler(route, tokenValid, form, wiki), wiki)
  {
    var o := SavePageHandler(route, tokenValid, form, wiki);
    assert |o.calls| <= 2 && (|o.calls| > 0 ==> o.calls[0].SavePage?);
    assert |o.calls| == 2 ==> o.calls[1] == RebuildIndex;
    OneCallDiscipline(o, wiki);
  }

  /**
   * After a save request, search answers from the store's new listing
   * exactly when the save succeeded; otherwise the index is untouched.
   */
  lemma SaveKeepsSearchCurrent(s: SearchService, route: Option<string>, tokenValid: bool, form: Form, wiki: Wiki, listing: seq<Page>)
    ensures var o := SavePageHandler(route, tokenValid, form, wiki);
      Replay(s, o.calls, listing) == (if RebuildIndex in o.calls then BuildIndex(s, listing) else s)
    ensures SavePageHandler(route, tokenValid, form, wiki).response.Redirect? ==>
      Replay(s, SavePageHandler(route, tokenValid, form, wiki).calls, listing).index == Some(Build(listing))
  {
    var o := SavePageHandler(route, tokenValid, form, wiki);
    ReplayShort(s, o.calls, listing);
  }

  /** The same for page deletion: the index follows the store only when the delete succeeded. */
  lemma DeleteKeepsSearchCurrent(s: SearchService, tokenValid: bool, form: Form, wiki: Wiki, listing: seq<Page>)
    ensures var o := DeletePageHandler(tokenValid, form, wiki);
      Replay(s, o.calls, listing) == (if RebuildIndex in o.calls then BuildIndex(s, listing) else s)
  {
    ReplayShort(s, DeletePageHandler(tokenValid, form, wiki).calls, listing);
  }

  /** Deleting an attachment never touches the index. */
  lemma AttachmentDeleteLeavesSearch(s: SearchService, tokenValid: bool, form: Form, wiki: Wiki, listing: seq<Page>)
    ensures Replay(s, DeleteAttachmentHandler(tokenValid, form, wiki).calls, listing) == s
  {
  }

  /** Replaying at most two calls, of which only a second one may be a rebuild. */
  lemma ReplayShort(s: SearchService, calls: seq<Call>, listing: seq<Page>)
    requires |calls| <= 2
    requires |calls| > 0 ==> calls[0] != RebuildIndex
    ensures Replay(s, calls, listing) == (if RebuildIndex in calls then BuildIndex(s, listing) else s)
  {
    if |calls| == 2 {
      assert calls[1..][1..] == [];
      assert Replay(s, calls, listing) == Replay(s, calls[1..], listing);
      if calls[1] == RebuildIndex {
        assert Replay(s, calls[1..], listing) == Replay(BuildIndex(s, listing), [], listing);
      } else {
        assert Replay(s, calls[1..], listing) == Replay(s, [], listing);
      }
    } else if |calls| == 1 {
      assert calls[1..] == [];
      assert Replay(s, calls, listing) == Replay(s, [], listing);
    }
  }
}

=== FILE: http.dfy ===
/**
 * The parts of ASP.NET request handling the wiki's handlers depend on:
 * `StringValues` (what a query or form key yields), form collections with
 * their uploaded files, and the exceptions that end a request with a server
 * error.
 */
module Http {
  import opened Wrappers
  import opened Text
  import Numbers

  /** The values sent under one key: none, one, or several. */
  type StringValues = seq<string>

  /** `StringValues.IsNullOrEmpty`: no value, or a single empty one. Several values are never "empty". */
  predicate IsNullOrEmpty(v: StringValues) {
    |v| == 0 || (|v| == 1 && v[0] == "")
  }

  /** The entries of `v` that are not empty, in their order. */
  function NonEmptyEntries(v: StringValues): (r: seq<string>)
    ensures forall k :: 0 <= k < |r| ==> r[k] != ""
    ensures |r| == 0 <==> forall k :: 0 <= k < |v| ==> v[k] == ""
  {
    if |v| == 0 then []
    else
      var rest := NonEmptyEntries(v[1..]);
      assert forall k :: 1 <= k < |v| ==> v[k] == v[1..][k - 1];
      if v[0] == "" then rest else [v[0]] + rest
  }

  /**
   * The implicit conversion to `string`: `null` for no value, the value itself
   * for one, and for several the non-empty entries joined with `,` (empty
   * entries are skipped, so several empty entries give `""`).
   */
  function AsString(v: StringValues): (r: Option<string>)
    ensures r.None? <==> |v| == 0
    ensures |v| == 1 ==> r == Some(v[0])
    ensures |v| >= 2 ==> r == Some(Join(",", NonEmptyEntries(v)))
    ensures r.Some? ==> (r.value == "" <==> forall k :: 0 <= k < |v| ==> v[k] == "")
  {
    if |v| == 0 then None
    else if |v| == 1 then Some(v[0])
    else
      var parts := NonEmptyEntries(v);
      JoinOfNonEmpty(",", parts);
      Some(Join(",", parts))
  }

  /** A join of non-empty parts is empty exactly when there are no parts. */
  lemma JoinOfNonEmpty(sep: string, parts: seq<string>)
    requires forall k :: 0 <= k < |parts| ==> parts[k] != ""
    ensures Join(sep, parts) == "" <==> |parts| == 0
  {
    if |parts| >= 2 {
      assert Join(sep, parts) == parts[0] + sep + Join(sep, parts[1..]);
    }
  }

  /** Filtering empty entries distributes over concatenation. */
  lemma {:induction false} NonEmptyEntriesConcat(a: StringValues, b: StringValues)
    ensures NonEmptyEntries(a + b) == NonEmptyEntries(a) + NonEmptyEntries(b)
  {
    if |a| > 0 {
      assert (a + b)[1..] == a[1..] + b;
      NonEmptyEntriesConcat(a[1..], b);
    } else {
      assert a + b == b;
    }
  }

  /** An empty entry added anywhere to a key that already has a value does not change its string. */
  lemma EmptyEntryIgnored(v: StringValues, i: nat)
    requires |v| >= 1 && i <= |v|
    ensures AsString(v[..i] + [""] + v[i..]) == AsString(v)
  {
    var w := v[..i] + [""] + v[i..];
    NonEmptyEntriesConcat(v[..i], [""]);
    NonEmptyEntriesConcat(v[..i] + [""], v[i..]);
    NonEmptyEntriesConcat(v[..i], v[i..]);
    assert v[..i] + v[i..] == v;
    assert NonEmptyEntries(w) == NonEmptyEntries(v);
    if |v| == 1 {
      if v[0] == "" {
        assert NonEmptyEntries(v) == [];
      } else {
        assert NonEmptyEntries(v) == [v[0]] + NonEmptyEntries(v[1..]);
        assert NonEmptyEntries(v[1..]) == [];
      }
    }
  }

  /** `Id=&Id=5` binds `5`, and `Id=a&Id=` names the file `a`. */
  lemma EmptyEntriesSkipped()
    ensures AsString(["", "5"]) == Some("5")
    ensures AsString(["a", ""]) == Some("a")
    ensures AsString(["", ""]) == Some("")
  {
    assert NonEmptyEntries(["", "5"]) == ["5"] by {
      assert ["", "5"][1..] == ["5"];
      assert NonEmptyEntries(["5"]) == ["5"] + NonEmptyEntries(["5"][1..]);
    }
    assert NonEmptyEntries(["a", ""]) == ["a"] by {
      assert ["a", ""][1..] == [""];
      assert NonEmptyEntries([""]) == NonEmptyEntries([""][1..]);
    }
  }

  /**
   * The emptiness test and the conversion agree: a null-or-empty key converts
   * to `null` or `""`, and for at most one value the converse holds too. Several
   * values are never null-or-empty, even when every one is empty.
   */
  lemma NullOrEmptyIffBlank(v: StringValues)
    ensures IsNullOrEmpty(v) ==> AsString(v) == None || AsString(v) == Some("")
    ensures |v| <= 1 ==> (AsString(v) == None || AsString(v) == Some("") ==> IsNullOrEmpty(v))
    ensures |v| >= 2 ==> !IsNullOrEmpty(v)
  {
  }

  /** An uploaded file; only what the handlers look at. */
  datatype FormFile = FormFile(name: string, fileName: string, contentType: string, length: nat)

  /** A posted form: its fields and its uploaded files. */
  datatype Form = Form(fields: map<string, StringValues>, files: seq<FormFile>)

  /** `form[key]`: a missing key yields no values rather than an error. */
  function Field(form: Form, key: string): (v: StringValues)
    ensures key !in form.fields ==> v == []
  {
    if key in form.fields then form.fields[key] else []
  }

  /** `form.Files[name]`: the first file uploaded under that name, compared ignoring case, or `null`. */
  function GetFile(files: seq<FormFile>, name: string): (r: Option<FormFile>)
    ensures r.Some? ==> (EqualsIgnoreCase(r.value.name, name) &&
      exists k :: 0 <= k < |files| && files[k] == r.value &&
        forall j :: 0 <= j < k ==> !EqualsIgnoreCase(files[j].name, name))
    ensures r.None? <==> forall k :: 0 <= k < |files| ==> !EqualsIgnoreCase(files[k].name, name)
  {
    if |files| == 0 then None
    else if EqualsIgnoreCase(files[0].name, name) then Some(files[0])
    else
      var r := GetFile(files[1..], name);
      if r.Some? then
        var k :| 0 <= k < |files[1..]| && files[1..][k] == r.value &&
          forall j :: 0 <= j < k ==> !EqualsIgnoreCase(files[1..][j].name, name);
        assert files[k + 1] == r.value;
        r
      else r
  }

  /** An exception that escapes a handler; the request ends with a server error. */
  datatype Fault =
    | AntiforgeryRejected               // ValidateRequestAsync throws on a missing or bad token
    | BadNumber(error: Numbers.ParseError)  // Convert.ToInt32 throws
    | NullReference                     // a member access through null
    | IndexNotBuilt                     // SearchTerm before the first BuildIndex
}

=== FILE: kebab.dfy ===
/**
 * The slug canonicaliser of the `/new-page` endpoint: `ToKebabCase` collects
 * the matches of
 *
 *   [A-Z]{2,}(?=[A-Z][a-z]+[0-9]*|\b) | [A-Z]?[a-z]+[0-9]* | [A-Z] | [0-9]+
 *
 * scanning left to right, joins them with `-` and lower-cases the result.
 *
 * The regular expression is modelled as a hand-written lexer. A match is tried
 * at the start of the remaining text; when none of the four alternatives
 * matches, one character is skipped. The pattern never inspects characters
 * before the start of a match (its only `\b` follows at least two matched
 * letters), so matching at position i of a string is the same as matching at
 * the start of the suffix from i, which is what `Lex` does.
 */
module Kebab {
  import opened Wrappers
  import opened Text
  import Numbers

  /**
   * A word character for `\b`. ASCII letters, digits and `_` are exact; every
   * non-ASCII character counts as a word character (see the README).
   */
  predicate IsWordChar(c: char) { IsAlnum(c) || c == '_' || c as int >= 0x80 }

  /** `\b` between positions p - 1 and p; outside the string there are no word characters. */
  predicate WordBoundary(s: string, p: nat)
    requires p <= |s|
  {
    (p > 0 && IsWordChar(s[p - 1])) != (p < |s| && IsWordChar(s[p]))
  }

  /**
   * The lookahead `(?=[A-Z][a-z]+[0-9]*|\b)` at position p. Its first branch
   * holds as soon as an upper-case letter is followed by a lower-case one,
   * since `[0-9]*` also matches nothing.
   */
  predicate UpperRunLookahead(s: string, p: nat)
    requires p <= |s|
  {
    (p + 1 < |s| && IsUpper(s[p]) && IsLower(s[p + 1])) || WordBoundary(s, p)
  }

  /**
   * First alternative, `[A-Z]{2,}` followed by the lookahead, given the first
   * k characters of s are upper-case letters. The greedy quantifier first
   * takes all k, then gives letters back one at a time until the lookahead
   * holds, but never keeps fewer than two.
   */
  function UpperRunMatch(s: string, k: nat): (r: Option<nat>)
    requires k <= |s|
    ensures r.Some? ==> 2 <= r.value <= k && UpperRunLookahead(s, r.value)
    ensures r.Some? ==> forall m :: r.value < m <= k ==> !UpperRunLookahead(s, m)
    ensures r.None? <==> forall m :: 2 <= m <= k ==> !UpperRunLookahead(s, m)
  {
    if k < 2 then None
    else if UpperRunLookahead(s, k) then Some(k)
    else UpperRunMatch(s, k - 1)
  }

  /** Length of `[a-z]+[0-9]*` at the start of s, or 0 when s does not start with a lower-case letter. */
  function LowerDigitsLength(s: string): (n: nat)
    ensures n <= |s|
    ensures n > 0 <==> |s| > 0 && IsLower(s[0])
  {
    var l := Span(s, IsLower);
    if l == 0 then 0 else l + Span(s[l..], IsDigit)
  }

  /** Second alternative, `[A-Z]?[a-z]+[0-9]*`: the optional capital is tried first. */
  function WordMatch(s: string): (r: Option<nat>)
    ensures r.Some? ==> 0 < r.value <= |s|
  {
    if |s| >= 2 && IsUpper(s[0]) && IsLower(s[1]) then Some(1 + LowerDigitsLength(s[1..]))
    else if |s| >= 1 && IsLower(s[0]) then Some(LowerDigitsLength(s))
    else None
  }

  predicate AllUpper(t: string) { forall j :: 0 <= j < |t| ==> IsUpper(t[j]) }

  /** `[a-z]+[0-9]*` matches the whole of t. */
  predicate LowerThenDigits(t: string) {
    var l := Span(t, IsLower);
    l > 0 && forall j :: l <= j < |t| ==> IsDigit(t[j])
  }

  /** The text of one match: it is matched whole by one of the four alternatives. */
  predicate TokenShape(t: string) {
    || (|t| >= 2 && AllUpper(t))
    || LowerThenDigits(t)
    || (|t| >= 2 && IsUpper(t[0]) && LowerThenDigits(t[1..]))
    || (|t| == 1 && IsUpper(t[0]))
    || (|t| > 0 && Numbers.AllDigits(t))
  }

  /** A lower-cased match: `[a-z]+[0-9]*` or `[0-9]+`. */
  predicate LowerToken(t: string) {
    LowerThenDigits(t) || (|t| > 0 && Numbers.AllDigits(t))
  }

  lemma LowerDigitsShape(s: string)
    requires |s| > 0 && IsLower(s[0])
    ensures LowerThenDigits(s[..LowerDigitsLength(s)])
  {
    var l := Span(s, IsLower);
    var n := LowerDigitsLength(s);
    var t := s[..n];
    var d := Span(s[l..], IsDigit);
    assert n == l + d;
    SpanUnique(t, IsLower, l);
    forall j | l <= j < |t|
      ensures IsDigit(t[j])
    {
      assert t[j] == s[l..][j - l];
    }
  }

  /**
   * The match at the start of non-empty text: the length of the text the
   * first successful alternative matches, or `None` when the first character
   * cannot start a match, which is exactly when it is not an ASCII letter or
   * digit.
   */
  function Match(s: string): (r: Option<nat>)
    requires |s| > 0
    ensures r.Some? ==> 0 < r.value <= |s|
    ensures r.None? <==> !IsAlnum(s[0])
    ensures UpperRunMatch(s, Span(s, IsUpper)).Some? ==> r == UpperRunMatch(s, Span(s, IsUpper))
    ensures IsUpper(s[0]) && UpperRunMatch(s, Span(s, IsUpper)).None? && !(|s| >= 2 && IsLower(s[1])) ==> r == Some(1)
  {
    var upper := UpperRunMatch(s, Span(s, IsUpper));
    if upper.Some? then upper
    else if WordMatch(s).Some? then WordMatch(s)
    else if IsUpper(s[0]) then Some(1)
    else if IsDigit(s[0]) then Some(Span(s, IsDigit))
    else None
  }

  /** What a match covers is matched whole by one of the four alternatives. */
  lemma MatchShape(s: string)
    requires |s| > 0 && Match(s).Some?
    ensures TokenShape(s[..Match(s).value])
  {
    var upper := UpperRunMatch(s, Span(s, IsUpper));
    if upper.Some? {
      assert AllUpper(s[..upper.value]);
    } else if WordMatch(s).Some? {
      if IsUpper(s[0]) && |s| >= 2 && IsLower(s[1]) {
        LowerDigitsShape(s[1..]);
        assert s[..WordMatch(s).value][1..] == s[1..][..LowerDigitsLength(s[1..])];
      } else {
        LowerDigitsShape(s);
      }
    } else if IsDigit(s[0]) {
      assert Numbers.AllDigits(s[..Span(s, IsDigit)]);
    }
  }

  /**
   * A match ends where its alternative's greedy quantifiers stop: it is never
   * followed by a character that would have continued a run of lower-case
   * letters, of digits, or a capital's word.
   */
  lemma MatchMaximal(s: string)
    requires |s| > 0 && Match(s).Some? && Match(s).value < |s|
    ensures var k := Match(s).value;
      && !(IsLower(s[k - 1]) && (IsLower(s[k]) || IsDigit(s[k])))
      && !(IsDigit(s[k - 1]) && IsDigit(s[k]))
      && !(IsUpper(s[k - 1]) && IsLower(s[k]))
  {
    var k := Match(s).value;
    var upper := UpperRunMatch(s, Span(s, IsUpper));
    if upper.Some? {
      assert IsUpper(s[k - 1]);
    } else if WordMatch(s).Some? {
      var start := if IsUpper(s[0]) && |s| >= 2 && IsLower(s[1]) then 1 else 0;
      var t := s[start..];
      var n := LowerDigitsLength(t);
      assert k == start + n;
      LowerDigitsMaximal(t);
      assert s[k - 1] == t[n - 1] && s[k] == t[n];
    } else if IsUpper(s[0]) {
      assert k == 1;
    }
  }

  /** `[a-z]+[0-9]*` stops at the first character that neither quantifier takes. */
  lemma LowerDigitsMaximal(t: string)
    requires |t| > 0 && IsLower(t[0]) && LowerDigitsLength(t) < |t|
    ensures var n := LowerDigitsLength(t);
      && (IsLower(t[n - 1]) || IsDigit(t[n - 1]))
      && !(IsLower(t[n - 1]) && (IsLower(t[n]) || IsDigit(t[n])))
      && !(IsDigit(t[n - 1]) && IsDigit(t[n]))
  {
    var l := Span(t, IsLower);
    var d := Span(t[l..], IsDigit);
    if d == 0 {
      assert t[l] == t[l..][0];
    } else {
      assert t[l + d - 1] == t[l..][d - 1];
      assert t[l + d] == t[l..][d];
    }
  }

  /** The matches of the pattern in s, left to right; unmatched characters are skipped. */
  function Lex(s: string): seq<string>
    decreases |s|
  {
    if |s| == 0 then []
    else match Match(s)
      case None => Lex(s[1..])
      case Some(k) => [s[..k]] + Lex(s[k..])
  }

  /** Every match the scan collects is matched whole by one alternative. */
  lemma {:induction false} LexShapes(s: string)
    ensures forall k :: 0 <= k < |Lex(s)| ==> TokenShape(Lex(s)[k])
    decreases |s|
  {
    if |s| > 0 {
      match Match(s)
      case None =>
        LexShapes(s[1..]);
      case Some(n) =>
        MatchShape(s);
        LexShapes(s[n..]);
        assert Lex(s) == [s[..n]] + Lex(s[n..]);
    }
  }

  /** `ToKebabCase`: the matches joined with `-`, then lower-cased. */
  function ToKebabCase(s: string): string
  {
    Lower(Join("-", Lex(s)))
  }

  // ---- What the lexer keeps and drops ----

  /** The ASCII letters and digits of s, in order. */
  function KeepAlnum(s: string): (r: string)
  {
    if |s| == 0 then ""
    else if IsAlnum(s[0]) then [s[0]] + KeepAlnum(s[1..])
    else KeepAlnum(s[1..])
  }

  lemma {:induction false} KeepAlnumAppend(a: string, b: string)
    ensures KeepAlnum(a + b) == KeepAlnum(a) + KeepAlnum(b)
  {
    if |a| > 0 {
      assert (a + b)[1..] == a[1..] + b;
      KeepAlnumAppend(a[1..], b);
    } else {
      assert a + b == b;
    }
  }

  lemma {:induction false} KeepAlnumAll(t: string)
    requires forall j :: 0 <= j < |t| ==> IsAlnum(t[j])
    ensures KeepAlnum(t) == t
  {
    if |t| > 0 {
      KeepAlnumAll(t[1..]);
    }
  }

  lemma ShapeIsAlnum(t: string)
    requires TokenShape(t)
    ensures |t| > 0 && forall j :: 0 <= j < |t| ==> IsAlnum(t[j])
  {
  }

  /** A match covers only ASCII letters and digits. */
  lemma MatchAlnum(s: string)
    requires |s| > 0 && Match(s).Some?
    ensures forall j :: 0 <= j < Match(s).value ==> IsAlnum(s[j])
  {
    MatchShape(s);
    ShapeIsAlnum(s[..Match(s).value]);
    assert forall j :: 0 <= j < Match(s).value ==> s[j] == s[..Match(s).value][j];
  }

  /** Putting a run of letters and digits in front keeps the correspondence between pieces and kept characters. */
  lemma ConcatKeep(t: string, rest: seq<string>, u: string)
    requires forall j :: 0 <= j < |t| ==> IsAlnum(t[j])
    requires Concat(rest) == KeepAlnum(u)
    ensures Concat([t] + rest) == KeepAlnum(t + u)
  {
    KeepAlnumAll(t);
    KeepAlnumAppend(t, u);
    assert ([t] + rest)[1..] == rest;
  }

  /**
   * The matches, put back together, are exactly the ASCII letters and digits
   * of the input: every such character lands in some match, and nothing
   * else does. Other characters only separate matches.
   */
  lemma {:induction false} LexKeepsExactlyAlnum(s: string)
    ensures Concat(Lex(s)) == KeepAlnum(s)
    decreases |s|
  {
    if |s| > 0 {
      if !IsAlnum(s[0]) {
        LexSkip(s);
        LexKeepsExactlyAlnum(s[1..]);
      } else {
        var k := Match(s).value;
        calc {
          Concat(Lex(s));
          { LexStep(s, k); }
          Concat([s[..k]] + Lex(s[k..]));
          { MatchAlnum(s);
            LexKeepsExactlyAlnum(s[k..]);
            ConcatKeep(s[..k], Lex(s[k..]), s[k..]); }
          KeepAlnum(s[..k] + s[k..]);
          { assert s[..k] + s[k..] == s; }
          KeepAlnum(s);
        }
      }
    }
  }

  lemma {:induction false} ConcatEmpty(parts: seq<string>)
    requires forall k :: 0 <= k < |parts| ==> |parts[k]| > 0
    ensures Concat(parts) == "" <==> |parts| == 0
  {
  }

  lemma {:induction false} KeepAlnumEmpty(s: string)
    ensures KeepAlnum(s) == "" <==> forall j :: 0 <= j < |s| ==> !IsAlnum(s[j])
  {
    if |s| > 0 {
      KeepAlnumEmpty(s[1..]);
      assert forall j :: 1 <= j < |s| ==> s[j] == s[1..][j - 1];
    }
  }

  // ---- The shape of the slug ----

  /** A slug: lower-case letters, digits and single inner hyphens. */
  predicate IsSlug(r: string) {
    && (forall j :: 0 <= j < |r| ==> IsLower(r[j]) || IsDigit(r[j]) || r[j] == '-')
    && (|r| > 0 ==> r[0] != '-' && r[|r| - 1] != '-')
    && (forall j :: 0 <= j < |r| - 1 ==> !(r[j] == '-' && r[j + 1] == '-'))
  }

  /** Lower-casing a match yields `[a-z]+[0-9]*` or `[0-9]+`. */
  lemma LowerShape(t: string)
    requires TokenShape(t)
    ensures LowerToken(Lower(t))
  {
    var u := Lower(t);
    if |t| >= 2 && AllUpper(t) {
      SpanUnique(u, IsLower, |u|);
    } else if LowerThenDigits(t) {
      LowerIdentity(t);
    } else if |t| >= 2 && IsUpper(t[0]) && LowerThenDigits(t[1..]) {
      var l := Span(t[1..], IsLower);
      LowerIdentity(t[1..]);
      assert u[1..] == Lower(t[1..]);
      SpanUnique(u, IsLower, l + 1);
    } else if |t| == 1 && IsUpper(t[0]) {
      SpanUnique(u, IsLower, 1);
    } else {
      LowerIdentity(t);
    }
  }

  lemma LowerTokenChars(t: string)
    requires LowerToken(t)
    ensures |t| > 0
    ensures forall j :: 0 <= j < |t| ==> IsLower(t[j]) || IsDigit(t[j])
  {
  }

  /** The output is the matches, each lower-cased, joined with `-`. */
  lemma KebabIsLoweredTokens(s: string)
    ensures ToKebabCase(s) == Join("-", LowerEach(Lex(s)))
    ensures forall k :: 0 <= k < |Lex(s)| ==> LowerToken(LowerEach(Lex(s))[k])
  {
    LexShapes(s);
    LowerJoin(Lex(s));
    forall k | 0 <= k < |Lex(s)|
      ensures LowerToken(LowerEach(Lex(s))[k])
    {
      LowerShape(Lex(s)[k]);
    }
  }

  /**
   * `ToKebabCase` always yields a slug: only `a-z`, `0-9` and `-`, never a
   * leading or trailing `-`, never `--`; and it is empty exactly when the
   * input holds no ASCII letter or digit.
   */
  lemma KebabIsSlug(s: string)
    ensures IsSlug(ToKebabCase(s))
    ensures ToKebabCase(s) == "" <==> forall j :: 0 <= j < |s| ==> !IsAlnum(s[j])
  {
    KebabIsLoweredTokens(s);
    var parts := LowerEach(Lex(s));
    forall k | 0 <= k < |parts|
      ensures |parts[k]| > 0 && Avoids(parts[k], '-')
    {
      LowerTokenChars(parts[k]);
    }
    forall k, j | 0 <= k < |parts| && 0 <= j < |parts[k]|
      ensures IsLower(parts[k][j]) || IsDigit(parts[k][j]) || parts[k][j] == '-'
    {
      LowerTokenChars(parts[k]);
    }
    JoinSeparated('-', parts);
    JoinChars("-", parts, c => IsLower(c) || IsDigit(c) || c == '-');
    LexKeepsExactlyAlnum(s);
    LexShapes(s);
    forall k | 0 <= k < |Lex(s)|
      ensures |Lex(s)[k]| > 0
    {
      ShapeIsAlnum(Lex(s)[k]);
    }
    ConcatEmpty(Lex(s));
    KeepAlnumEmpty(s);
  }

  // ---- Idempotence ----

  /** A lower-cased match followed by `-` or by nothing is matched whole. */
  lemma MatchLowerToken(t: string, rest: string)
    requires LowerToken(t)
    requires rest == [] || rest[0] == '-'
    ensures Match(t + rest) == Some(|t|)
  {
    var s := t + rest;
    LowerTokenChars(t);
    SpanUnique(s, IsUpper, 0);
    if LowerThenDigits(t) {
      var l := Span(t, IsLower);
      SpanUnique(s, IsLower, l);
      SpanUnique(s[l..], IsDigit, |t| - l);
    } else {
      SpanUnique(s, IsDigit, |t|);
    }
  }

  /** A character that cannot start a match is skipped. */
  lemma LexSkip(s: string)
    requires |s| > 0 && !IsAlnum(s[0])
    ensures Lex(s) == Lex(s[1..])
  {
  }

  /** Lexing a join of lower-cased matches gives back those matches. */
  lemma {:induction false} LexJoinOfLowerTokens(parts: seq<string>)
    requires forall k :: 0 <= k < |parts| ==> LowerToken(parts[k])
    ensures Lex(Join("-", parts)) == parts
  {
    if |parts| == 1 {
      var t := parts[0];
      MatchLowerToken(t, []);
      assert t + [] == t;
      LexStep(t, |t|);
      assert t[..|t|] == t;
      assert t[|t|..] == [];
    } else if |parts| > 1 {
      var t := parts[0];
      var rest := Join("-", parts[1..]);
      var s := Join("-", parts);
      assert s == t + ("-" + rest);
      MatchLowerToken(t, "-" + rest);
      LexStep(s, |t|);
      assert s[..|t|] == t;
      assert s[|t|..] == "-" + rest;
      LexSkip("-" + rest);
      assert ("-" + rest)[1..] == rest;
      LexJoinOfLowerTokens(parts[1..]);
    }
  }

  /** Canonicalising a slug again changes nothing. */
  lemma KebabIdempotent(s: string)
    ensures ToKebabCase(ToKebabCase(s)) == ToKebabCase(s)
  {
    KebabIsLoweredTokens(s);
    var parts := LowerEach(Lex(s));
    var r := Join("-", parts);
    LexJoinOfLowerTokens(parts);
    forall k, j | 0 <= k < |parts| && 0 <= j < |parts[k]|
      ensures !IsUpper(parts[k][j])
    {
      LowerTokenChars(parts[k]);
    }
    JoinChars("-", parts, c => !IsUpper(c));
    LowerIdentity(r);
  }

  // ---- Where matches split ----

  /**
   * Inside one match a lower-case letter is never followed by an upper-case
   * one, and a digit is only ever followed by a digit: case changes from
   * lower to upper, and digit-to-letter changes, always start a new match.
   */
  lemma TokenTransitions(s: string, k: nat, j: nat)
    requires k < |Lex(s)| && j + 1 < |Lex(s)[k]|
    ensures !(IsLower(Lex(s)[k][j]) && IsUpper(Lex(s)[k][j + 1]))
    ensures IsDigit(Lex(s)[k][j]) ==> IsDigit(Lex(s)[k][j + 1])
  {
    LexShapes(s);
    var t := Lex(s)[k];
    if LowerThenDigits(t) {
      var l := Span(t, IsLower);
      assert j + 1 < l || IsDigit(t[j + 1]);
    } else if |t| >= 2 && IsUpper(t[0]) && LowerThenDigits(t[1..]) {
      var u := t[1..];
      var l := Span(u, IsLower);
      if j > 0 {
        assert t[j] == u[j - 1] && t[j + 1] == u[j];
        assert j < l || IsDigit(u[j]);
      } else {
        assert u[0] == t[1];
      }
    }
  }

  /** One step of the scan, when the text starts with a match of length k. */
  lemma LexStep(s: string, k: nat)
    requires |s| > 0 && Match(s) == Some(k)
    ensures Lex(s) == [s[..k]] + Lex(s[k..])
  {
  }

  /** Text that is one whole match lexes to itself. */
  lemma LexWhole(t: string)
    requires |t| > 0 && Match(t) == Some(|t|)
    ensures Lex(t) == [t]
  {
    LexStep(t, |t|);
    assert t[..|t|] == t;
    assert t[|t|..] == [];
  }

  /** Text whose first match is t, followed by u, lexes to t and then the matches of u. */
  lemma LexSplit(s: string, t: string, u: string, rest: seq<string>)
    requires |s| > 0 && s == t + u && Match(s) == Some(|t|)
    requires Lex(u) == rest
    ensures Lex(s) == [t] + rest
  {
    LexStep(s, |t|);
    assert s[..|t|] == t;
    assert s[|t|..] == u;
  }

  /** A capital followed only by lower-case letters is one whole match. */
  lemma MatchCapitalised(s: string, l: nat)
    requires |s| == l + 1 && IsUpper(s[0])
    requires l > 0 && forall j :: 1 <= j < |s| ==> IsLower(s[j])
    ensures Match(s) == Some(|s|)
  {
  }

  // ---- Facts about the example strings ----
  //
  // The worked examples below are proved from one-line facts about their
  // literal strings: where the first match ends, how the literal splits into
  // its matches, and what it lower-cases to. Each fact is a lemma of its own
  // because the verifier evaluates a literal string cheaply only when little
  // else is in scope.

  lemma MatchCamel()
    ensures Match("camelCase") == Some(5)
  {
    var s := "camelCase";
    SpanUnique(s, IsUpper, 0);
    SpanUnique(s, IsLower, 5);
    SpanUnique(s[5..], IsDigit, 0);
  }

  lemma MatchCase()
    ensures Match("Case") == Some(4)
  {
    MatchCapitalised("Case", 3);
  }

  lemma SplitCamelCase()
    ensures "camelCase" == "camel" + "Case"
  {
  }

  lemma LowerCase()
    ensures Lower("Case") == "case"
  {
  }

  lemma MatchXml()
    ensures Match("XMLHttp") == Some(3)
  {
    var s := "XMLHttp";
    SpanUnique(s, IsUpper, 4);
    assert !UpperRunLookahead(s, 4);
    assert UpperRunLookahead(s, 3);
  }

  lemma SplitXmlHttp()
    ensures "XMLHttp" == "XML" + "Http"
  {
  }

  lemma LowerHttp()
    ensures Lower("Http") == "http"
  {
  }

  lemma MatchAbc123()
    ensures Match("abc123") == Some(6)
  {
    var s := "abc123";
    SpanUnique(s, IsUpper, 0);
    SpanUnique(s, IsLower, 3);
    SpanUnique(s[3..], IsDigit, 3);
  }

  lemma Match123abc()
    ensures Match("123abc") == Some(3)
  {
    var s := "123abc";
    SpanUnique(s, IsUpper, 0);
    SpanUnique(s, IsDigit, 3);
  }

  lemma MatchAbc()
    ensures Match("abc") == Some(3)
  {
    var s := "abc";
    SpanUnique(s, IsUpper, 0);
    SpanUnique(s, IsLower, 3);
    SpanUnique(s[3..], IsDigit, 0);
  }

  lemma Split123abc()
    ensures "123abc" == "123" + "abc"
  {
  }

  lemma MatchAB1()
    ensures Match("AB1") == Some(1)
  {
    var s := "AB1";
    SpanUnique(s, IsUpper, 2);
    assert !UpperRunLookahead(s, 2);
  }

  lemma MatchB1()
    ensures Match("B1") == Some(1)
  {
    SpanUnique("B1", IsUpper, 1);
  }

  lemma Match1()
    ensures Match("1") == Some(1)
  {
    SpanUnique("1", IsUpper, 0);
    SpanUnique("1", IsDigit, 1);
  }

  lemma SplitAB1()
    ensures "AB1" == "A" + "B1" && "B1" == "B" + "1"
  {
  }

  // ---- Worked examples ----

  lemma LexCamelCase()
    ensures Lex("camelCase") == ["camel", "Case"]
  {
    MatchCamel();
    MatchCase();
    LexWhole("Case");
    SplitCamelCase();
    LexSplit("camelCase", "camel", "Case", ["Case"]);
  }

  /** A lower-to-upper change splits: `camelCase` becomes `camel-case`. */
  lemma ExampleCamelCase()
    ensures ToKebabCase("camelCase") == "camel-case"
  {
    calc {
      ToKebabCase("camelCase");
      { KebabIsLoweredTokens("camelCase"); }
      Join("-", LowerEach(Lex("camelCase")));
      { LexCamelCase(); }
      Join("-", LowerEach(["camel", "Case"]));
      { LowerIdentity("camel");
        LowerCase();
        assert LowerEach(["camel", "Case"]) == ["camel", "case"]; }
      Join("-", ["camel", "case"]);
      "camel-case";
    }
  }

  lemma LexUpperRun()
    ensures Lex("XMLHttp") == ["XML", "Http"]
  {
    MatchXml();
    MatchCapitalised("Http", 3);
    LexWhole("Http");
    SplitXmlHttp();
    LexSplit("XMLHttp", "XML", "Http", ["Http"]);
  }

  /**
   * An upper-case run gives its last letter back to a following capitalised
   * word: `XMLHttp` becomes `xml-http`.
   */
  lemma ExampleUpperRun()
    ensures ToKebabCase("XMLHttp") == "xml-http"
  {
    calc {
      ToKebabCase("XMLHttp");
      { KebabIsLoweredTokens("XMLHttp"); }
      Join("-", LowerEach(Lex("XMLHttp")));
      { LexUpperRun(); }
      Join("-", LowerEach(["XML", "Http"]));
      { assert Lower("XML") == "xml";
        LowerHttp();
        assert LowerEach(["XML", "Http"]) == ["xml", "http"]; }
      Join("-", ["xml", "http"]);
      "xml-http";
    }
  }

  /** Digits after letters stay in the same match: `abc123` is unchanged. */
  lemma ExampleTrailingDigits()
    ensures ToKebabCase("abc123") == "abc123"
  {
    calc {
      ToKebabCase("abc123");
      { KebabIsLoweredTokens("abc123"); }
      Join("-", LowerEach(Lex("abc123")));
      { MatchAbc123(); LexWhole("abc123"); }
      Join("-", LowerEach(["abc123"]));
      { LowerIdentity("abc123"); assert LowerEach(["abc123"]) == ["abc123"]; }
      Join("-", ["abc123"]);
      "abc123";
    }
  }

  lemma LexLeadingDigits()
    ensures Lex("123abc") == ["123", "abc"]
  {
    Match123abc();
    MatchAbc();
    LexWhole("abc");
    Split123abc();
    LexSplit("123abc", "123", "abc", ["abc"]);
  }

  /** Letters after digits start a new match: `123abc` becomes `123-abc`. */
  lemma ExampleLeadingDigits()
    ensures ToKebabCase("123abc") == "123-abc"
  {
    calc {
      ToKebabCase("123abc");
      { KebabIsLoweredTokens("123abc"); }
      Join("-", LowerEach(Lex("123abc")));
      { LexLeadingDigits(); }
      Join("-", LowerEach(["123", "abc"]));
      { LowerIdentity("123");
        LowerIdentity("abc");
        assert LowerEach(["123", "abc"]) == ["123", "abc"]; }
      Join("-", ["123", "abc"]);
      "123-abc";
    }
  }

  lemma LexAB1()
    ensures Lex("AB1") == ["A", "B", "1"]
  {
    MatchAB1();
    MatchB1();
    Match1();
    SplitAB1();
    LexWhole("1");
    LexSplit("B1", "B", "1", ["1"]);
    LexSplit("AB1", "A", "B1", ["B", "1"]);
  }

  /**
   * A capital run whose lookahead fails, here because a digit follows, is
   * not kept together: each capital is a match of its own, so `AB1`
   * becomes `a-b-1`.
   */
  lemma ExampleCapitalsBeforeDigit()
    ensures ToKebabCase("AB1") == "a-b-1"
  {
    calc {
      ToKebabCase("AB1");
      { KebabIsLoweredTokens("AB1"); }
      Join("-", LowerEach(Lex("AB1")));
      { LexAB1(); }
      Join("-", LowerEach(["A", "B", "1"]));
      { assert Lower("A") == "a";
        assert Lower("B") == "b";
        LowerIdentity("1");
        assert LowerEach(["A", "B", "1"]) == ["a", "b", "1"]; }
      Join("-", ["a", "b", "1"]);
      "a-b-1";
    }
  }
}

=== FILE: numbers.dfy ===
/**
 * 32-bit integers as the wiki's handlers read and write them: `Int32.ToString()`
 * for page ids put into documents and forms, and `Convert.ToInt32(string)`
 * (which is `int.Parse` with `NumberStyles.Integer`) for ids read back.
 */
module Numbers {
  import opened Wrappers
  import opened Text

  const MinInt32: int := -0x8000_0000
  const MaxInt32: int := 0x7FFF_FFFF

  /** C# `int`. */
  type Int32 = x: int | MinInt32 <= x <= MaxInt32

  /** Why `int.Parse` throws: `FormatException` or `OverflowException`. */
  datatype ParseError = FormatError | OverflowError

  function DigitChar(d: nat): (c: char)
    requires d < 10
    ensures IsDigit(c)
  {
    ('0' as int + d) as char
  }

  function DigitValue(c: char): (d: nat)
    requires IsDigit(c)
    ensures d < 10 && DigitChar(d) == c
  {
    c as int - '0' as int
  }

  predicate AllDigits(s: string) {
    forall j :: 0 <= j < |s| ==> IsDigit(s[j])
  }

  /** The decimal digits of `n`, most significant first, without leading zeros. */
  function NatToDigits(n: nat): (s: string)
    ensures |s| > 0 && AllDigits(s)
    ensures |s| > 1 ==> s[0] != '0'
  {
    if n < 10 then [DigitChar(n)] else NatToDigits(n / 10) + [DigitChar(n % 10)]
  }

  /** The number a run of decimal digits denotes. */
  function DigitsValue(s: string): nat
    requires AllDigits(s)
  {
    if |s| == 0 then 0 else DigitsValue(s[..|s| - 1]) * 10 + DigitValue(s[|s| - 1])
  }

  lemma {:induction false} DigitsRoundTrip(n: nat)
    ensures DigitsValue(NatToDigits(n)) == n
  {
    if n >= 10 {
      var s := NatToDigits(n);
      assert s[..|s| - 1] == NatToDigits(n / 10);
      DigitsRoundTrip(n / 10);
    }
  }

  /** `Int32.ToString()`: a `-` for negative values, then the decimal digits. */
  function FormatInt32(n: Int32): (s: string)
    ensures |s| > 0
    ensures s[0] == '-' <==> n < 0
    ensures AllDigits(if n < 0 then s[1..] else s)
  {
    if n < 0 then "-" + NatToDigits(0 - n as int) else NatToDigits(n)
  }

  /** The white space `int.Parse` skips around a number. */
  predicate IsParseWhite(c: char) { c == ' ' || '\t' <= c <= '\r' }

  /** `int.Parse` also tolerates NUL characters at the very end. */
  predicate IsNul(c: char) { c == 0 as char }

  /**
   * `int.Parse(s)` under `NumberStyles.Integer` with the invariant signs:
   * optional leading white space, an optional `+` or `-`, one or more ASCII
   * digits, optional trailing white space and trailing NULs. A malformed
   * string is a format error even when its digits would also overflow.
   */
  function ParseInt32(s: string): (r: Result<Int32, ParseError>)
    ensures |s| == 0 ==> r == Failure(FormatError)
  {
    ParseSigned(s[Span(s, IsParseWhite)..])
  }

  /** The length of an optional leading `+` or `-`. */
  function SignLength(rest: string): nat {
    if |rest| > 0 && (rest[0] == '-' || rest[0] == '+') then 1 else 0
  }

  /** What `int.Parse` does once the leading white space is skipped. */
  function ParseSigned(rest: string): Result<Int32, ParseError>
  {
    var negative := |rest| > 0 && rest[0] == '-';
    ParseMagnitude(negative, rest[SignLength(rest)..])
  }

  /**
   * The digits after the sign, then only white space and trailing NULs. A
   * malformed string is a format error even when its digits would also
   * overflow.
   */
  function ParseMagnitude(negative: bool, body: string): Result<Int32, ParseError>
  {
    var d := Span(body, IsDigit);
    var tail := body[d..];
    var trail := tail[Span(tail, IsParseWhite)..];
    if d == 0 || Span(trail, IsNul) < |trail| then
      Failure(FormatError)
    else
      var magnitude := DigitsValue(body[..d]);
      var v: int := if negative then 0 - magnitude else magnitude;
      if MinInt32 <= v <= MaxInt32 then Success(v) else Failure(OverflowError)
  }

  /**
   * Text without an ASCII digit, the empty text included, is a format error:
   * every accepted string has a digit right after its white space and sign.
   */
  lemma ParseNeedsDigit(s: string)
    ensures (forall j :: 0 <= j < |s| ==> !IsDigit(s[j])) ==> ParseInt32(s) == Failure(FormatError)
    ensures ParseInt32(s).Success? ==> exists j :: 0 <= j < |s| && IsDigit(s[j])
  {
    var w := Span(s, IsParseWhite);
    var rest := s[w..];
    var k := SignLength(rest);
    var body := rest[k..];
    if ParseInt32(s).Success? {
      assert ParseMagnitude(|rest| > 0 && rest[0] == '-', body).Success?;
      assert Span(body, IsDigit) > 0;
      assert s[w + k] == body[0];
    }
  }

  /** `Convert.ToInt32(string)`: `null` converts to 0, anything else is parsed. */
  function ConvertToInt32(s: Option<string>): (r: Result<Int32, ParseError>)
    ensures s.None? ==> r == Success(0)
  {
    match s
    case None => Success(0)
    case Some(text) => ParseInt32(text)
  }

  /** Every id written with `ToString()` is read back by `Convert.ToInt32` as the same id. */
  lemma FormatParseRoundTrip(n: Int32)
    ensures ParseInt32(FormatInt32(n)) == Success(n)
  {
    var s := FormatInt32(n);
    var digits: nat := if n < 0 then 0 - n as int else n;
    var ds := NatToDigits(digits);
    SpanUnique(s, IsParseWhite, 0);
    DigitsRoundTrip(digits);
    if n < 0 {
      EmptyAround(ds);
      ParseWellFormed("", "-", ds, "");
    } else {
      EmptyAround(ds);
      ParseWellFormed("", "", ds, "");
    }
  }

  /** The value `int.Parse` gives the optional sign and the digits, before the Int32 range check. */
  function SignedValue(sign: string, ds: string): int
    requires AllDigits(ds)
  {
    if sign == "-" then 0 - DigitsValue(ds) else DigitsValue(ds)
  }

  /**
   * The accepted grammar: white space, an optional `+` or `-`, a run of
   * digits and white space parse to the signed value of the digits when it
   * fits in an Int32, and to an overflow error when it does not.
   */
  lemma ParseWellFormed(lead: string, sign: string, ds: string, trail: string)
    requires forall j :: 0 <= j < |lead| ==> IsParseWhite(lead[j])
    requires sign == "" || sign == "+" || sign == "-"
    requires |ds| > 0 && AllDigits(ds)
    requires forall j :: 0 <= j < |trail| ==> IsParseWhite(trail[j])
    ensures var v := SignedValue(sign, ds);
      ParseInt32(lead + (sign + (ds + trail))) ==
        (if MinInt32 <= v <= MaxInt32 then Success(v) else Failure(OverflowError))
  {
    var body := ds + trail;
    var rest := sign + body;
    SignedStart(sign, body);
    ParseSkipsWhite(lead, rest);
    ParseSignedWellFormed(sign, body);
    ParseMagnitudeWellFormed(sign == "-", ds, trail);
  }

  /** A sign or a digit is not white space. */
  lemma SignedStart(sign: string, body: string)
    requires sign == "" || sign == "+" || sign == "-"
    requires |body| > 0 && IsDigit(body[0])
    ensures |sign + body| > 0 && !IsParseWhite((sign + body)[0])
  {
  }

  /** Leading white space is skipped. */
  lemma ParseSkipsWhite(lead: string, rest: string)
    requires forall j :: 0 <= j < |lead| ==> IsParseWhite(lead[j])
    requires |rest| > 0 ==> !IsParseWhite(rest[0])
    ensures ParseInt32(lead + rest) == ParseSigned(rest)
  {
    SpanOfPrefix(lead, rest, IsParseWhite);
    assert (lead + rest)[|lead|..] == rest;
  }

  /** An optional sign in front of a digit is consumed, and only a `-` negates. */
  lemma ParseSignedWellFormed(sign: string, body: string)
    requires sign == "" || sign == "+" || sign == "-"
    requires |body| > 0 && IsDigit(body[0])
    ensures ParseSigned(sign + body) == ParseMagnitude(sign == "-", body)
  {
    var rest := sign + body;
    assert rest[0] == (if sign != "" then sign[0] else body[0]);
    assert rest[|sign|..] == body;
  }

  /** The digits-then-white-space part of the grammar. */
  lemma ParseMagnitudeWellFormed(negative: bool, ds: string, trail: string)
    requires |ds| > 0 && AllDigits(ds)
    requires forall j :: 0 <= j < |trail| ==> IsParseWhite(trail[j])
    ensures var v := if negative then 0 - DigitsValue(ds) else DigitsValue(ds);
      ParseMagnitude(negative, ds + trail) ==
        (if MinInt32 <= v <= MaxInt32 then Success(v) else Failure(OverflowError))
  {
    var body := ds + trail;
    SpanOfPrefix(ds, trail, IsDigit);
    assert body[..|ds|] == ds;
    assert body[|ds|..] == trail;
    SpanOfPrefix(trail, [], IsParseWhite);
    assert trail + [] == trail;
    assert trail[|trail|..] == [];
  }

  /** Empty lead, sign and trail leave the digits as they are. */
  lemma EmptyAround(ds: string)
    ensures "" + ("" + (ds + "")) == ds
    ensures "" + ("-" + (ds + "")) == "-" + ds
  {
    assert ds + "" == ds;
  }

  /** A string of digits alone parses to its value, or overflows past `int.MaxValue`. */
  lemma ParseDigitsOnly(s: string)
    requires |s| > 0 && AllDigits(s)
    ensures ParseInt32(s) == (if DigitsValue(s) <= MaxInt32 then Success(DigitsValue(s)) else Failure(OverflowError))
  {
    EmptyAround(s);
    ParseWellFormed("", "", s, "");
  }

  /** The same read back through `Convert.ToInt32`. */
  lemma ConvertFormatted(n: Int32)
    ensures ConvertToInt32(Some(FormatInt32(n))) == Success(n)
  {
    FormatParseRoundTrip(n);
  }

  /** Ids therefore survive a round trip through their text: distinct ids never share a rendering. */
  lemma FormatInjective(m: Int32, n: Int32)
    requires FormatInt32(m) == FormatInt32(n)
    ensures m == n
  {
    FormatParseRoundTrip(m);
    FormatParseRoundTrip(n);
  }
}

=== FILE: records.dfy ===
/**
 * The wiki's records and the edit form's binding and validation:
 * `PageInput.From(IFormCollection)`, `PageInput.From(Page)` and
 * `PageInputValidator`.
 */
module Records {
  import opened Wrappers
  import opened Text
  import opened Numbers
  import opened Http

  datatype Namespace = Namespace(id: Int32, name: string, description: Option<string>)

  datatype Attachment = Attachment(fileId: string, fileName: string, mimeType: string)

  /**
   * A stored page. `id`, `ns`, `name`, `content` and `attachments` are the
   * record's own properties. `nsName` (the address pages are linked under) and
   * `contents` (the segments the search index joins) are used by the
   * handlers and the index but defined by the store, so they are kept as
   * given values here.
   */
  datatype Page = Page(
    id: Int32,
    ns: Option<Namespace>,
    name: string,
    content: string,
    attachments: seq<Attachment>,
    nsName: string,
    contents: seq<string>)

  /** What the edit form binds to. `None` stands for `null`. */
  datatype PageInput = PageInput(
    id: Option<Int32>,
    name: Option<string>,
    content: Option<string>,
    attachment: Option<FormFile>)

  /**
   * `PageInput.From(form)`. An `Id` that is absent or empty leaves the id
   * unset; any other value goes through `Convert.ToInt32`, whose exception
   * escapes. `Name` and `Content` are taken as they are converted to strings.
   */
  function FromForm(form: Form): (r: Result<PageInput, ParseError>)
    ensures r.Success? ==> (r.value.id.None? <==> IsNullOrEmpty(Field(form, "Id")))
    ensures r.Success? && r.value.id.Some? ==> ConvertToInt32(AsString(Field(form, "Id"))) == Success(r.value.id.value)
    ensures r.Failure? ==> !IsNullOrEmpty(Field(form, "Id")) && ConvertToInt32(AsString(Field(form, "Id"))) == Failure(r.error)
    ensures r.Success? ==> r.value.name == AsString(Field(form, "Name")) && r.value.content == AsString(Field(form, "Content"))
    ensures r.Success? ==> r.value.attachment == GetFile(form.files, "Attachment")
  {
    var id := Field(form, "Id");
    var rest := PageInput(None, AsString(Field(form, "Name")), AsString(Field(form, "Content")), GetFile(form.files, "Attachment"));
    if IsNullOrEmpty(id) then Success(rest)
    else match ConvertToInt32(AsString(id))
      case Success(n) => Success(rest.(id := Some(n)))
      case Failure(e) => Failure(e)
  }

  /** The address a page is edited under: `namespace/name`, or just the name. */
  function DisplayName(p: Page): (r: string)
    ensures p.ns.None? ==> r == p.name
    ensures p.ns.Some? ==> (|r| == |p.ns.value.name| + 1 + |p.name| &&
      r[..|p.ns.value.name|] == p.ns.value.name && r[|p.ns.value.name|] == '/' && r[|p.ns.value.name| + 1..] == p.name)
  {
    match p.ns
    case Some(ns) => ns.name + "/" + p.name
    case None => p.name
  }

  /** `PageInput.From(page)`: the page's id and content, its display address, no upload. */
  function FromPage(p: Page): (r: PageInput)
    ensures r.id == Some(p.id) && r.content == Some(p.content) && r.attachment == None
    ensures r.name == Some(DisplayName(p))
  {
    PageInput(Some(p.id), Some(DisplayName(p)), Some(p.content), None)
  }

  /**
   * The fields the edit form posts back for an input: `Name`, `Content`, an
   * empty `ContentId`, and a hidden `Id` written with `ToString()` when the
   * input has an id. A `null` name or content is written as an empty value.
   */
  function EditorForm(input: PageInput): Form {
    var fields := map["Name" := [input.name.GetOr("")], "ContentId" := [""], "Content" := [input.content.GetOr("")]];
    match input.id
    case Some(n) => Form(fields["Id" := [FormatInt32(n)]], [])
    case None => Form(fields, [])
  }

  /** Editing a page and submitting the form unchanged binds back to the same input. */
  lemma EditRoundTrip(p: Page)
    ensures FromForm(EditorForm(FromPage(p))) == Success(FromPage(p))
  {
    var form := EditorForm(FromPage(p));
    assert Field(form, "Id") == [FormatInt32(p.id)];
    assert Field(form, "Name") == [DisplayName(p)];
    assert Field(form, "Content") == [p.content];
    BindWrittenId(form, p.id);
  }

  /** A form with a hidden `Id` written from an id and no upload binds that id and its text fields. */
  lemma BindWrittenId(form: Form, n: Int32)
    requires Field(form, "Id") == [FormatInt32(n)] && form.files == []
    ensures FromForm(form) == Success(PageInput(Some(n), AsString(Field(form, "Name")), AsString(Field(form, "Content")), None))
  {
    ConvertFormatted(n);
    assert !IsNullOrEmpty(Field(form, "Id"));
  }

  // ---- Validation ----

  /** One failed rule: the property it is reported on and its message. */
  datatype ValidationFailure = ValidationFailure(property: string, message: string)

  const NameRequired := ValidationFailure("Name", "Name is required")
  const ContentRequired := ValidationFailure("Content", "Content is required")

  function KeepHomeName(homePageName: string): ValidationFailure {
    ValidationFailure("Name", "You cannot modify home page name. Please keep it " + homePageName)
  }

  /** The home-page rule is only added when the route names the home page, ignoring case. */
  predicate HomeRuleActive(pageName: string, homePageName: string) {
    EqualsIgnoreCase(pageName, homePageName)
  }

  /**
   * `PageInputValidator(pageName, homePageName).Validate(input)`: the rules in
   * the order they are declared. `NotEmpty` rejects `null`, empty and
   * all-white-space strings. The home-page rule calls `name.Equals`, so on a
   * `null` name it throws instead of failing.
   */
  function Validate(pageName: string, homePageName: string, input: PageInput): (r: Result<seq<ValidationFailure>, Fault>)
    ensures r.Failure? <==> HomeRuleActive(pageName, homePageName) && input.name.None?
    ensures r.Failure? ==> r.error == NullReference
    ensures r.Success? ==> (NameRequired in r.value <==> IsNullOrWhiteSpace(input.name))
    ensures r.Success? ==> (ContentRequired in r.value <==> IsNullOrWhiteSpace(input.content))
    ensures r.Success? ==> (KeepHomeName(homePageName) in r.value <==>
                             HomeRuleActive(pageName, homePageName) && input.name != Some(homePageName))
    ensures r.Success? ==> |r.value| <= 3
  {
    var nameErrors := if IsNullOrWhiteSpace(input.name) then [NameRequired] else [];
    var contentErrors := if IsNullOrWhiteSpace(input.content) then [ContentRequired] else [];
    if !HomeRuleActive(pageName, homePageName) then
      Success(nameErrors + contentErrors)
    else match input.name
      case None => Failure(NullReference)
      case Some(name) =>
        var homeErrors := if name != homePageName then [KeepHomeName(homePageName)] else [];
        Success(nameErrors + homeErrors + contentErrors)
  }

  /** An input is accepted exactly when every rule that applies to it passes. */
  lemma ValidIffAllRulesPass(pageName: string, homePageName: string, input: PageInput)
    requires Validate(pageName, homePageName, input).Success?
    ensures Validate(pageName, homePageName, input).value == [] <==>
      && !IsNullOrWhiteSpace(input.name)
      && !IsNullOrWhiteSpace(input.content)
      && (HomeRuleActive(pageName, homePageName) ==> input.name == Some(homePageName))
  {
  }

  /** The route check ignores case but the name check does not: renaming to `Home-Page` on the home route is refused. */
  lemma HomeRenameByCaseRefused()
    ensures Validate("Home-Page", "home-page", PageInput(None, Some("Home-Page"), Some("x"), None))
         == Success([KeepHomeName("home-page")])
  {
    assert HomeRuleActive("Home-Page", "home-page");
    assert !IsWhiteSpace("Home-Page"[0]);
    assert !IsWhiteSpace("x"[0]);
    assert "Home-Page"[0] != "home-page"[0];
    assert [] + [KeepHomeName("home-page")] + [] == [KeepHomeName("home-page")];
  }

  /** The rules are independent: an empty name on the home route fails both name rules. */
  lemma EmptyNameOnHomeRoute(content: string)
    requires !IsNullOrWhiteSpace(Some(content))
    ensures Validate("home-page", "home-page", PageInput(None, Some(""), Some(content), None))
         == Success([NameRequired, KeepHomeName("home-page")])
  {
    assert HomeRuleActive("home-page", "home-page");
    assert IsNullOrWhiteSpace(Some(""));
    assert "" != "home-page";
    assert [NameRequired] + [KeepHomeName("home-page")] + [] == [NameRequired, KeepHomeName("home-page")];
  }
}

=== FILE: search.dfy ===
/**
 * The full-text search service: `BuildIndex` projects every listed page to
 * one document and replaces the whole index; `SearchTerm` refuses to run
 * before the first build and otherwise passes the index's results through.
 * Lunr's tokenising and ranking are not modelled: a query is answered by an
 * `Engine`, an arbitrary function of the index and the term.
 */
module Search {
  import opened Wrappers
  import opened Text
  import opened Numbers
  import opened Http
  import opened Records

  /** One indexed document: its reference, the page's address, and its text. */
  datatype Document = Document(id: string, pageName: string, content: string)

  /** What the index builder was given: the registered fields and the added documents, in order. */
  datatype LunrIndex = LunrIndex(fields: seq<string>, documents: seq<Document>)

  /** One ranked hit; only the document reference is read by the wiki. */
  datatype SearchResult = SearchResult(documentReference: string)

  /** Lunr's query evaluation over a built index; the term is `None` when the query had no `term`. */
  type Engine = (LunrIndex, Option<string>) -> seq<SearchResult>

  /** The service's one piece of state: the current index, `None` until the first build. */
  datatype SearchService = SearchService(index: Option<LunrIndex>)

  const Unbuilt := SearchService(None)

  const IndexFields := ["id", "pageName", "content"]

  /** The document for one page: id in decimal, the page's address, its segments joined by one space. */
  function Project(p: Page): (d: Document)
    ensures ParseInt32(d.id) == Success(p.id)
    ensures d.pageName == p.nsName
    ensures d.content == Join(" ", p.contents)
  {
    FormatParseRoundTrip(p.id);
    Document(FormatInt32(p.id), p.nsName, Join(" ", p.contents))
  }

  /**
   * The index built from a page listing: nothing at all for no pages;
   * otherwise the three fields, then one document per page in listing order.
   */
  function Build(pages: seq<Page>): (idx: LunrIndex)
    ensures |pages| == 0 ==> idx == LunrIndex([], [])
    ensures |pages| > 0 ==> idx.fields == IndexFields
    ensures |idx.documents| == |pages|
    ensures forall k :: 0 <= k < |pages| ==> idx.documents[k] == Project(pages[k])
  {
    if |pages| == 0 then LunrIndex([], [])
    else LunrIndex(IndexFields, seq(|pages|, k requires 0 <= k < |pages| => Project(pages[k])))
  }

  /** `BuildIndex`: the index is replaced by one built from the current listing. */
  function BuildIndex(s: SearchService, pages: seq<Page>): (s': SearchService)
    ensures s'.index.Some?
  {
    SearchService(Some(Build(pages)))
  }

  /** `SearchTerm`: fails before the first build, else the engine's results unchanged and in order. */
  function SearchTerm(s: SearchService, term: Option<string>, engine: Engine): (r: Result<seq<SearchResult>, Fault>)
    ensures r.Failure? <==> s.index.None?
    ensures r.Failure? ==> r.error == IndexNotBuilt
    ensures r.Success? ==> r.value == engine(s.index.value, term)
  {
    match s.index
    case None => Failure(IndexNotBuilt)
    case Some(idx) => Success(engine(idx, term))
  }

  /** The document references an index holds. */
  predicate IsDocumentId(idx: LunrIndex, ref: string) {
    exists k :: 0 <= k < |idx.documents| && idx.documents[k].id == ref
  }

  /** The service after a sequence of builds, each from its own listing. */
  function RebuildAll(s: SearchService, listings: seq<seq<Page>>): SearchService
    decreases |listings|
  {
    if |listings| == 0 then s else RebuildAll(BuildIndex(s, listings[0]), listings[1..])
  }

  /**
   * Builds replace wholesale: after any non-empty run of builds the index is
   * exactly the one built from the last listing, whatever came before.
   */
  lemma {:induction false} LastBuildWins(s: SearchService, listings: seq<seq<Page>>)
    requires |listings| > 0
    ensures RebuildAll(s, listings) == SearchService(Some(Build(listings[|listings| - 1])))
    decreases |listings|
  {
    if |listings| > 1 {
      LastBuildWins(BuildIndex(s, listings[0]), listings[1..]);
    }
  }

  /** "Built" is absorbing: once built, any further builds leave an index in place. */
  lemma {:induction false} BuiltStaysBuilt(s: SearchService, listings: seq<seq<Page>>)
    requires s.index.Some?
    ensures RebuildAll(s, listings).index.Some?
  {
    if |listings| > 0 {
      LastBuildWins(s, listings);
    }
  }

  /** Searching before any build fails; after any build, even of no pages, it answers from that build. */
  lemma SearchAfterBuild(s: SearchService, pages: seq<Page>, term: Option<string>, engine: Engine)
    ensures SearchTerm(Unbuilt, term, engine) == Failure(IndexNotBuilt)
    ensures SearchTerm(BuildIndex(s, pages), term, engine) == Success(engine(Build(pages), term))
  {
  }

  /** Rebuilding from the same listing changes nothing, so repeated searches agree. */
  lemma RebuildIdempotent(s: SearchService, pages: seq<Page>)
    ensures BuildIndex(BuildIndex(s, pages), pages) == BuildIndex(s, pages)
  {
  }

  /**
   * No document outlives its page: every document of a fresh index projects
   * a page of the listing it was built from, and every such page's id is a
   * document reference that reads back as that id.
   */
  lemma DocumentsMatchListing(s: SearchService, pages: seq<Page>)
    ensures var idx := BuildIndex(s, pages).index.value;
      && (forall d :: d in idx.documents ==> exists p :: p in pages && d == Project(p))
      && (forall p :: p in pages ==> IsDocumentId(idx, FormatInt32(p.id)))
  {
    var idx := BuildIndex(s, pages).index.value;
    forall d | d in idx.documents
      ensures exists p :: p in pages && d == Project(p)
    {
      var k :| 0 <= k < |idx.documents| && idx.documents[k] == d;
      assert pages[k] in pages;
    }
    forall p | p in pages
      ensures IsDocumentId(idx, FormatInt32(p.id))
    {
      var k :| 0 <= k < |pages| && pages[k] == p;
      assert idx.documents[k].id == FormatInt32(p.id);
    }
  }
}

=== FILE: text.dfy ===
/**
 * Character classes and string helpers shared by the model: the ASCII classes
 * of the slug pattern, invariant lower-casing, `string.Join`, and the
 * white-space test behind `string.IsNullOrWhiteSpace`.
 */
module Text {
  import opened Wrappers

  /** `[A-Z]` in a .NET regular expression without IgnoreCase. */
  predicate IsUpper(c: char) { 'A' <= c <= 'Z' }

  /** `[a-z]`. */
  predicate IsLower(c: char) { 'a' <= c <= 'z' }

  /** `[0-9]`. */
  predicate IsDigit(c: char) { '0' <= c <= '9' }

  /** `[A-Za-z0-9]`: the only characters the slug pattern can match. */
  predicate IsAlnum(c: char) { IsUpper(c) || IsLower(c) || IsDigit(c) }

  /** Invariant-culture lower-casing restricted to ASCII letters. */
  function LowerChar(c: char): (d: char)
    ensures IsUpper(c) ==> IsLower(d) && d as int == c as int + 32
    ensures !IsUpper(c) ==> d == c
  {
    if IsUpper(c) then (c as int + 32) as char else c
  }

  /** `string.ToLower()` under the invariant culture, for ASCII text. */
  function Lower(s: string): (r: string)
    ensures |r| == |s|
    ensures forall j :: 0 <= j < |s| ==> r[j] == LowerChar(s[j])
  {
    seq(|s|, j requires 0 <= j < |s| => LowerChar(s[j]))
  }

  lemma LowerAppend(a: string, b: string)
    ensures Lower(a + b) == Lower(a) + Lower(b)
  {
  }

  /** Text without upper-case ASCII letters is left alone by `Lower`. */
  lemma LowerIdentity(s: string)
    requires forall j :: 0 <= j < |s| ==> !IsUpper(s[j])
    ensures Lower(s) == s
  {
  }

  /** Ordinal comparison ignoring case, for ASCII letters. */
  predicate EqualsIgnoreCase(a: string, b: string) {
    |a| == |b| && forall j :: 0 <= j < |a| ==> LowerChar(a[j]) == LowerChar(b[j])
  }

  /**
   * Length of the longest prefix of `s` whose characters all satisfy `p`:
   * what a greedy `p*` consumes.
   */
  function Span(s: string, p: char -> bool): (n: nat)
    ensures n <= |s|
    ensures forall j :: 0 <= j < n ==> p(s[j])
    ensures n < |s| ==> !p(s[n])
  {
    if |s| > 0 && p(s[0]) then 1 + Span(s[1..], p) else 0
  }

  /** The three facts of `Span`'s contract pin its value down. */
  lemma SpanUnique(s: string, p: char -> bool, n: nat)
    requires n <= |s|
    requires forall j :: 0 <= j < n ==> p(s[j])
    requires n < |s| ==> !p(s[n])
    ensures Span(s, p) == n
  {
  }

  /** A span over a prefix whose every character passes stops where the next part begins. */
  lemma SpanOfPrefix(a: string, b: string, p: char -> bool)
    requires forall j :: 0 <= j < |a| ==> p(a[j])
    requires |b| > 0 ==> !p(b[0])
    ensures Span(a + b, p) == |a|
  {
    forall j | 0 <= j < |a|
      ensures p((a + b)[j])
    {
      assert (a + b)[j] == a[j];
    }
    if |b| > 0 {
      assert (a + b)[|a|] == b[0];
    }
    SpanUnique(a + b, p, |a|);
  }

  /** `string.Join(sep, parts)`. */
  function Join(sep: string, parts: seq<string>): string
  {
    if |parts| == 0 then ""
    else if |parts| == 1 then parts[0]
    else parts[0] + sep + Join(sep, parts[1..])
  }

  /** The concatenation of all parts, with nothing between them. */
  function Concat(parts: seq<string>): string
  {
    if |parts| == 0 then "" else parts[0] + Concat(parts[1..])
  }

  /** True when `c` occurs nowhere in `s`. */
  predicate Avoids(s: string, c: char) {
    forall j :: 0 <= j < |s| ==> s[j] != c
  }

  /**
   * Joining non-empty parts that do not contain the separator character gives
   * a string that neither starts nor ends with it and never holds it twice in
   * a row; it is empty exactly when there are no parts.
   */
  lemma {:induction false} JoinSeparated(c: char, parts: seq<string>)
    requires forall k :: 0 <= k < |parts| ==> |parts[k]| > 0 && Avoids(parts[k], c)
    ensures var r := Join([c], parts);
      && (r == "" <==> |parts| == 0)
      && (|r| > 0 ==> r[0] != c && r[|r| - 1] != c)
      && (forall j :: 0 <= j < |r| - 1 ==> !(r[j] == c && r[j + 1] == c))
  {
    if |parts| > 1 {
      JoinSeparated(c, parts[1..]);
      var head := parts[0];
      var tail := Join([c], parts[1..]);
      var r := Join([c], parts);
      assert r == head + [c] + tail;
      assert |tail| > 0 && tail[0] != c;
      forall j | 0 <= j < |r| - 1
        ensures !(r[j] == c && r[j + 1] == c)
      {
        if j < |head| - 1 {
          assert r[j] == head[j];
        } else if j == |head| - 1 {
          assert r[j] == head[j];
        } else if j == |head| {
          assert r[j + 1] == tail[0];
        } else {
          assert r[j] == tail[j - |head| - 1];
          assert r[j + 1] == tail[j + 1 - |head| - 1];
        }
      }
    }
  }

  /** Every part lower-cased. */
  function LowerEach(parts: seq<string>): (r: seq<string>)
    ensures |r| == |parts|
    ensures forall k :: 0 <= k < |parts| ==> r[k] == Lower(parts[k])
  {
    seq(|parts|, k requires 0 <= k < |parts| => Lower(parts[k]))
  }

  /** Lower-casing a joined string lower-cases each part and keeps a `-` separator. */
  lemma {:induction false} LowerJoin(parts: seq<string>)
    ensures Lower(Join("-", parts)) == Join("-", LowerEach(parts))
  {
    if |parts| > 1 {
      LowerJoin(parts[1..]);
      assert LowerEach(parts)[1..] == LowerEach(parts[1..]);
      LowerAppend(parts[0] + "-", Join("-", parts[1..]));
      LowerAppend(parts[0], "-");
    }
  }

  /** A property of every character of every part and of the separator holds of the whole join. */
  lemma {:induction false} JoinChars(sep: string, parts: seq<string>, p: char -> bool)
    requires forall j :: 0 <= j < |sep| ==> p(sep[j])
    requires forall k, j :: 0 <= k < |parts| && 0 <= j < |parts[k]| ==> p(parts[k][j])
    ensures forall j :: 0 <= j < |Join(sep, parts)| ==> p(Join(sep, parts)[j])
  {
    if |parts| > 1 {
      JoinChars(sep, parts[1..], p);
      var head := parts[0] + sep;
      var r := Join(sep, parts);
      assert r == head + Join(sep, parts[1..]);
      forall j | 0 <= j < |r|
        ensures p(r[j])
      {
        if j < |parts[0]| {
          assert r[j] == parts[0][j];
        } else if j < |head| {
          assert r[j] == sep[j - |parts[0]|];
        } else {
          assert r[j] == Join(sep, parts[1..])[j - |head|];
        }
      }
    }
  }

  /** `char.IsWhiteSpace`: the Unicode White_Space characters. */
  predicate IsWhiteSpace(c: char) {
    var u := c as int;
    || u == 0x20 || 0x09 <= u <= 0x0D || u == 0x85 || u == 0xA0 || u == 0x1680
    || 0x2000 <= u <= 0x200A || u == 0x2028 || u == 0x2029 || u == 0x202F
    || u == 0x205F || u == 0x3000
  }

  /** `string.IsNullOrWhiteSpace`, with `None` for `null`. */
  predicate IsNullOrWhiteSpace(s: Option<string>) {
    s.None? || forall j :: 0 <= j < |s.value| ==> IsWhiteSpace(s.value[j])
  }
}

=== FILE: wrappers.dfy ===
/** Option and Result, used wherever the C# code returns null or throws. */
module Wrappers {

  /** A value that may be absent: `None` stands for a C# `null`. */
  datatype Option<+T> = None | Some(value: T) {

    function GetOr(default: T): T {
      match this
      case Some(v) => v
      case None => default
    }
  }

  /** Either a value or the error that the C# code would have thrown or reported. */
  datatype Result<+R, +E> = Success(value: R) | Failure(error: E)
}
